=== FILE: README.md ===
# Audio fingerprint correlation, modelled in Dafny

audio-compare decides whether two audio inputs (files or live streams)
carry the same audio. Each input becomes a Chromaprint fingerprint: a list
of 32-bit integer codes. The second list is slid against the first over a
window of offsets. At every offset the overlapping codes are scored by how
many of their 32 bits agree. The highest score wins, and the comparison
reports it as a percentage together with its offset.

This project models the engine of `correlation.py`:

- **Bits** (`bits.dfy`): Python's `^` on unbounded integers and
  `bin(v).count("1")`. The pair score `32 - popcount(x ^ y)` is proved
  equal to an independent bit-by-bit count of agreeing positions.
- **Similarity** (`similarity.dfy`): `correlation`. Both lists are cut to
  the shorter length, the pair scores are summed, and the sum is divided by
  the length and by 32. Scores are exact reals. There is a loop version
  written the way the source writes it, and a functional reference it is
  proved equal to.
- **Curve** (`curve.dfy`): `cross_correlation` (Python slicing at an
  offset, `None` below the minimum overlap) and `compare_fingerprints` (the
  scan over `numpy.arange(-span, span + 1, step)`). The slicing is proved
  to align the same codes as plain index arithmetic.
- **Selector** (`selector.dfy`): `get_max_corr`. It takes the maximum of the
  defined scores, then the first index holding that maximum. It recovers
  the offset as `-span + index * step`, scales the score to a percentage
  and compares it with the internal match threshold.
- **FingerprintText** (`fptext.dfy`): the parsing part of
  `calculate_fingerprints`. This covers `str.find` for `FINGERPRINT=`, slicing
  the rest of the text, `str.split(',')` and Python's `int()` on each field.
  A renderer for the same format is added, and the round trip between the
  two is proved.
- **Orchestrator** (`orchestrator.dfy`): the control flow of `correlate`.
  The result of each fingerprint acquisition is a parameter: tool output
  text, or one of the exceptions. The run records which inputs were
  fingerprinted and whether it paused. Its outcome tells apart the cases
  the source merges into `None`.
- **Scenarios** (`scenarios.dfy`): whole-comparison consequences. These
  cover identical and shifted inputs, inputs too short to score, a live
  stream that loops, and the range of the reported percentage.

The tuning constants `span`, `step`, `min_overlap` and
`internal_script_threshold` are gathered into one `Config` value
(`Types.DefaultConfig` holds the shipped values 150, 1, 20 and 0.5).

Two behaviours of the code are worth stating plainly:

- The warning in `compare_fingerprints` fires only when `span` is strictly
  greater than the shorter fingerprint. It is only printed, and the curve
  does not depend on it (`Curve.SpanExceedsSample`,
  `Scenarios.DefaultShortSampleWarned`).
- A fingerprint compared with itself does not always win at offset 0.
  `get_max_corr` keeps the first maximum in scan order, and scanning starts
  at `-span`. Take a fingerprint that repeats with a period `p`, where
  `0 < p <= span` and `span - p` is a multiple of `step`, so that `-p` is
  on the scan grid. If it still overlaps itself in at least `min_overlap`
  codes when shifted by `-p`, it scores 1 at `-p` as well. The earliest
  offset that scores 1 is the one reported, so the result is `-p` or an
  offset before it. In general the model proves a score of 100 percent at
  offset 0 or before it (`Scenarios.IdenticalFingerprintsMatchFully`), and
  at or before any scanned offset where the aligned parts are equal
  (`Scenarios.PerfectAlignmentWins`).

## Model

| member | source | states |
|---|---|---|
| Bits.XorInt | correlation.py:79 | Python's `^` on arbitrary integers, negatives read as two's complement: the result is negative exactly when one operand is. `PairScoreSelf`, `PairScoreFullIffEqual` and `PairScoreSymmetric` pin it down further |
| Bits.PopcountInt | correlation.py:79 | `bin(v).count("1")`, the one bits of the magnitude of `v`: zero exactly when `v` is zero. `PairScoreCountsAgreeingBits` relates it to bit-by-bit agreement |
| Bits.PairScore | correlation.py:79 | The per-pair term `32 - popcount(x ^ y)` never exceeds 32, for any integers |
| Bits.PairScoreCountsAgreeingBits | correlation.py:79 | For two unsigned 32-bit codes, `32 - popcount(x ^ y)` equals the number of bit positions where the codes agree (counted bit by bit), so it lies between 0 and 32 |
| Bits.PairScoreSelf | correlation.py:79 | A code paired with itself scores 32, for every integer including negative ones |
| Bits.PairScoreFullIffEqual | correlation.py:79 | A pair scores the full 32 exactly when its two codes are equal, for any integers |
| Bits.PairScoreSymmetric | correlation.py:79 | The pair score does not depend on the order of the pair |
| Similarity.Agreement | correlation.py:77-79 | The `covariance` accumulator over two equally long lists never exceeds 32 per pair. `CorrelationLoop` ties it to the loop and `AgreementCountsAgreeingBits` to bit-by-bit counting |
| Similarity.Correlation | correlation.py:60-64 | When either list is empty, the score is the neutral 0.0 |
| Similarity.CorrelationLoop | correlation.py:60-81 | The truncate-and-accumulate loop returns exactly the functional score: the loop invariant keeps the accumulator equal to the summed pair scores of the prefix |
| Similarity.CorrelationInUnitInterval | correlation.py:77-81 | Two lists of unsigned 32-bit codes score between 0 and 1 |
| Similarity.CorrelationAtMostOne | correlation.py:77-81 | No two lists score above 1, whatever integers they hold |
| Similarity.CorrelationSelf | correlation.py:77-81 | A nonempty fingerprint scored against itself gives 1 |
| Similarity.CorrelationSymmetric | correlation.py:66-81 | Swapping the two lists leaves the score unchanged, truncation included |
| Similarity.CorrelationUniformDifference | correlation.py:77-81 | If every aligned pair differs in the same `p` bits, the score is `1 - p/32` whatever the codes are |
| Similarity.CorrelationIsAgreeingBitFraction | correlation.py:77-81 | For equally long lists of 32-bit codes, the score is the number of agreeing bits divided by the `32 * n` bits compared |
| Similarity.CorrelationOfCommonPrefix | correlation.py:66-70 | Only the common prefix of the two lists (the shorter length) enters the score |
| Curve.Shift | correlation.py:83-92 | The slicing of `cross_correlation` never lengthens a list, and offset 0 leaves both unchanged. `ShiftAligns` states exactly which codes it keeps |
| Curve.ShiftAligns | correlation.py:83-92 | After the slicing at `offset`, the shorter list has exactly the overlap length, and its `i`-th codes are `xs[i + max(offset,0)]` and `ys[i + max(-offset,0)]`. The capped list is never longer, and offset 0 leaves both lists as they are |
| Curve.CrossCorrelation | correlation.py:94-96 | The score at an offset is undefined exactly when fewer than `min_overlap` positions face each other |
| Curve.CrossCorrelationScoresAligned | correlation.py:83-96 | A defined score is the correlation of exactly the codes that face each other at that offset, computed by index arithmetic without slicing |
| Curve.CrossCorrelationScoresNonemptyLists | correlation.py:94-96 | With a positive minimum overlap, a defined score never reaches the empty-list branch of `correlation` |
| Curve.CrossCorrelationSwap | correlation.py:83-96 | Shifting the second list by `offset` against the first scores the same as shifting the first by `-offset` against the second |
| Curve.CrossCorrelationPerfect | correlation.py:94-96 | An offset with enough overlap whose aligned codes are identical scores exactly 1 |
| Curve.NumOffsets | correlation.py:113 | The length of `numpy.arange(-span, span + 1, step)`: none for a negative span; otherwise the count `c` with `(c - 1) * step <= 2 * span < c * step`, so the last offset lies within the span and the next would not |
| Curve.SpanExceedsSample | correlation.py:102 | The warning condition: the span is strictly greater than the shorter fingerprint. `Scenarios.DefaultShortSampleWarned` shows it holding while the curve is all undefined |
| Curve.Scan | correlation.py:112-115 | The scan has one entry per offset `offset, offset+step, …` below `stop` (the ceiling count), and entry `i` is the score at `offset + i*step` |
| Curve.CompareFingerprints | correlation.py:98-115 | Either list empty gives the empty curve. Otherwise the curve has `NumOffsets` entries (`2*span+1` at unit step), entry `i` is the score at `-span + i*step`, and that offset lies in `[-span, span]` |
| Curve.OffsetScanned | correlation.py:113 | Every offset in `[-span, span]` on the step grid is scanned, at index `(o + span) / step` |
| Curve.ShortFingerprintsUndefined | correlation.py:94-115 | When the shorter fingerprint is below the minimum overlap, every curve entry is undefined, for any span and step |
| Curve.CurveInUnitInterval | correlation.py:112-115 | Every defined entry of the curve of two 32-bit fingerprints lies between 0 and 1 |
| Curve.CrossCorrelationAtMostOne | correlation.py:94-96 | A defined score never exceeds 1, for fingerprints of any integers |
| Curve.CurveAtMostOne | correlation.py:112-115 | No defined curve entry exceeds 1, for fingerprints of any integers |
| Selector.MaxDefined | correlation.py:122-133 | The maximum of the defined scores is absent exactly when none is defined. Otherwise it is a curve entry, and no defined score exceeds it |
| Selector.FirstIndexOf | correlation.py:138-142 | The result is the first index holding the value: it holds the value and no earlier index does, as the search with `break` gives |
| Selector.GetMaxCorr | correlation.py:117-160 | No result exactly when no score is defined. Otherwise the result is the first index of the largest defined score, its offset is `-span + index*step`, its percentage is the score times 100, and it is a match exactly when the score reaches the threshold |
| Selector.SelectBestMatch | correlation.py:131-149 | The source's `max` over the defined scores, then its first-index loop, written as two loops, compute the same result as the functional selector |
| Selector.FirstMaximumUnique | correlation.py:138-142 | A curve has only one first maximum, so the selected index is determined |
| Selector.PercentInRange | correlation.py:149 | Scores between 0 and 1 give a percentage between 0 and 100 |
| Selector.PerfectScoreOffset | correlation.py:138-148 | When no score exceeds 1 and index `i` scores 1, the result is 100 percent at an offset no greater than that of `i` |
| FingerprintText.FindFrom | correlation.py:42 | `str.find` from a start index: -1 or an occurrence at or after the start, with no occurrence between the start and the result |
| FingerprintText.Find | correlation.py:42-43 | `find` returns -1 exactly when the key occurs nowhere. Otherwise it returns an occurrence with none earlier |
| FingerprintText.Split | correlation.py:54 | Splitting on a comma gives at least one field, no field contains a comma, and joining the fields with commas gives the text back |
| FingerprintText.SplitJoin | correlation.py:54 | Splitting a comma-join of comma-free fields gives the fields back |
| FingerprintText.ParseAll | correlation.py:54-57 | Converting the fields succeeds exactly when every field is an integer, and the result holds each field's value in order |
| FingerprintText.ParseInt | correlation.py:54 | Python's `int()` on one field. A field it accepts is nonempty; the full grammar is proved in `ParseIntGrammar` |
| FingerprintText.ParseIntGrammar | correlation.py:54 | A field parses if and only if it is whitespace, an optional `+` or `-`, a digit group (decimal digits with single underscores between them) and whitespace; such a field parses to the signed value of its digits |
| FingerprintText.ParseIntAcceptsLiterals | correlation.py:54 | Whitespace, an optional sign, a digit group and whitespace always parse, to the signed value of the digits |
| FingerprintText.ParseIntOnlyLiterals | correlation.py:54 | Every field `int()` accepts splits into whitespace, an optional sign, a digit group and whitespace, and its value is the signed value of those digits |
| FingerprintText.StripLeftSpaces | correlation.py:54 | Leading whitespace before a non-space character is removed entirely, and nothing after it is |
| FingerprintText.StripRightSpaces | correlation.py:54 | Trailing whitespace after a non-space character is removed entirely, and nothing before it is |
| FingerprintText.StripLeftRemovesSpaces | correlation.py:54 | What stripping removes from the left of a field is whitespace only |
| FingerprintText.StripRightRemovesSpaces | correlation.py:54 | What stripping removes from the right of a field is whitespace only |
| FingerprintText.ParseIntNeedsDigit | correlation.py:54 | A field `int()` accepts contains a decimal digit, and a field of spaces only is rejected |
| FingerprintText.SeparatorControlsAreNotSpace | correlation.py:53-57 | `int()` strips U+0085 but not the ASCII controls U+001C to U+001F, so `FINGERPRINT=` followed by U+001C and `7` yields the failure value `[]` |
| FingerprintText.ParseDigitGroup | correlation.py:54 | `int()` reads a decimal digit group, bare or after a minus sign, as its value with that sign |
| FingerprintText.ParseShowInt | correlation.py:54 | Reading an integer's decimal text back with the model of `int()` gives the integer (Python's limit of 4300 digits is not modelled) |
| FingerprintText.ParseFingerprint | correlation.py:42-58 | The empty list (failure) comes back exactly when the key is absent, nothing follows it, or some field is not an integer. Otherwise field `i` after the key parses to code `i` |
| FingerprintText.ParseRender | correlation.py:42-58 | Parsing `FINGERPRINT=` followed by comma-separated codes gives those codes back, also after a preceding line that contains no `F` |
| Orchestrator.ReadFingerprint | correlation.py:167-193 | A fetch is usable exactly when it is tool output that parses to a nonempty fingerprint. The two tool exceptions propagate as errors, and any other exception makes the input unusable |
| Curve.NumOffsetsZero | correlation.py:113 | The offset range is empty exactly when the span is negative |
| Orchestrator.Correlate | correlation.py:163-213 | The source is fingerprinted first, and the target only after a usable source. There is a pause exactly when source equals target and the delay is positive. Tool exceptions are re-raised and unusable inputs fail. With two usable inputs, an empty curve happens exactly when the span is negative, and an indeterminate result exactly when no score is defined. Otherwise the result is the selector's best match |
| Scenarios.PerfectAlignmentWins | correlation.py:98-160 | If some scanned offset aligns identical codes over at least the minimum overlap, the comparison reports 100 percent at that offset or an earlier one |
| Scenarios.IdenticalFingerprintsMatchFully | correlation.py:98-160 | A fingerprint at least as long as the minimum overlap, compared with itself, reports 100 percent at offset 0 or before it, whatever integers it holds |
| Scenarios.ShiftedCopyMatchesFully | correlation.py:83-160 | A target equal to the source without its first `d` codes is found at 100 percent, at offset `d` or before it |
| Scenarios.CorrelatePercentInRange | correlation.py:163-213 | A comparison of 32-bit fingerprints that reports a percentage reports one between 0 and 100 |
| Scenarios.ShortFingerprintsIndeterminate | correlation.py:163-213 | Usable fingerprints shorter than the minimum overlap make the comparison indeterminate, never a score |
| Scenarios.DefaultCurveShape | correlation.py:12-18 | With the shipped span 150 and step 1, two nonempty fingerprints give 301 curve entries, entry `i` scoring offset `i - 150` with minimum overlap 20 |
| Scenarios.DefaultEdgeOffsets | correlation.py:94-115 | With the shipped configuration, the outer offsets -150 and 150 of two equally long fingerprints are scored exactly when the fingerprints have at least 170 codes (20 overlapping codes) |
| Scenarios.DefaultShortSampleWarned | correlation.py:102-115 | With the shipped configuration, fingerprints shorter than 20 codes trigger the span warning and leave all 301 curve entries undefined |
| Scenarios.LiveLoopDetected | correlation.py:163-213 | Comparing a live input with itself after a delay, where the stream repeats (any integer codes): the run fingerprints the input, sleeps, fingerprints it again, and reports 100 percent at offset 0 or before it |

## Left out

- Fingerprint acquisition (correlation.py:28-39) is not modelled: the cached `.fpcalc` file, the `fpcalc` subprocess and the `strip()`/replace of the raw output. Its result, text or exception, is a parameter of `Orchestrator.Correlate`.
- `time.sleep` is recorded as a `Sleep` event and does not wait.
- Every `print` is left out, including the advisory match and no-match lines of `get_max_corr`. Whether the threshold is reached is kept as `BestMatch.isMatch`.
- Floating point is replaced by exact reals, so the score's rounding and the float comparison in the index search are not modelled.
- Orchestrator.Correlate: requires a positive step. The source's step is the constant 1. `numpy.arange` raises for a zero step, and a negative step with a nonnegative span enumerates no offset, so the curve is empty and `correlate` returns `None`. Neither happens in the source's configuration.
- Non-integer steps (`numpy.arange` with a fractional step, truncated by `int()`) are not modelled. The step is an integer.
- Curve.CompareFingerprints: the warning for a span larger than the shorter fingerprint is only a predicate (`SpanExceedsSample`), because the source only prints it.
- The source's check at correlation.py:196-199 is not modelled. It cannot fail once both acquisitions returned nonempty lists.
- The source uses the global `span` and `step` in `get_max_corr` but the arguments in `compare_fingerprints`. Both take one `Config` here; they agree in the source because the same globals are passed.
- FingerprintText.ParseAll: inherits the two gaps of `ParseInt` in the next line. A field of non-ASCII decimal digits, or one with more than 4300 digits, is judged differently from Python.
- FingerprintText.ParseInt: accepts only ASCII digits, while Python's `int()` also accepts other Unicode decimal digits. It also has no limit on the number of digits. Python 3.11 and later (and patched 3.7 to 3.10) raise `ValueError` for a decimal string of more than 4300 digits, so for a field that long the source returns `[]` where `ParseFingerprint` returns its value. For the same reason `ParseShowInt` and `ParseRender` do not hold in Python for integers with more than 4300 digits.
- FingerprintText.ParseIntGrammar: describes the ASCII-digit grammar without a length limit, so it inherits both gaps of `ParseInt` in the previous line.
- Similarity.CorrelationInUnitInterval: its lower bound 0 needs codes in `[0, 2^32)`. For larger or negative Python integers the score can drop below 0, e.g. a pair `2^33 - 1` and `0` adds `-1`. The upper bound 1 holds for all integers (`Similarity.CorrelationAtMostOne`).
- Scenarios.IdenticalFingerprintsMatchFully: proves offset 0 or earlier, not offset 0. A fingerprint that repeats itself ties at an earlier offset, and the first maximum wins.
- `compare.py`, the monitoring wrapper that maps the percentage to a status, is not part of this model.

=== FILE: bits.dfy ===
/** Bit-level arithmetic behind the per-pair agreement score: Python's `^`
    on integers, the `bin(v).count("1")` population count, and an independent
    bit-by-bit count of agreeing positions that the score is proved to equal. */
module Bits {
  import opened Types

  function Pow2(k: nat): (p: nat)
    ensures p >= 1
  {
    if k == 0 then 1 else 2 * Pow2(k - 1)
  }

  lemma Pow2ThirtyTwo()
    ensures Pow2(32) == Uint32Limit
  {
    assert Pow2(4) == 16;
    assert Pow2(8) == 256 by { Pow2Add(4, 4); }
    assert Pow2(16) == 65536 by { Pow2Add(8, 8); }
    Pow2Add(16, 16);
  }

  lemma {:induction false} Pow2Add(a: nat, b: nat)
    ensures Pow2(a + b) == Pow2(a) * Pow2(b)
    decreases a
  {
    if a > 0 {
      Pow2Add(a - 1, b);
    }
  }

  /** Bitwise exclusive or of two naturals, least significant bit first. */
  function XorNat(a: nat, b: nat): nat
    decreases a + b
  {
    if a == 0 then b
    else if b == 0 then a
    else 2 * XorNat(a / 2, b / 2) + (if a % 2 == b % 2 then 0 else 1)
  }

  /** Number of one bits of a natural. */
  function Popcount(n: nat): (p: nat)
    ensures p == 0 <==> n == 0
  {
    if n == 0 then 0 else n % 2 + Popcount(n / 2)
  }

  /** Python's `a ^ b` on arbitrary integers, which behaves as if negative
      numbers had infinitely many leading one bits (two's complement):
      `~a` is `-a - 1`, and `~a ^ b == ~(a ^ b)`. */
  function XorInt(a: int, b: int): (r: int)
    ensures r < 0 <==> (a < 0) != (b < 0)
  {
    if a >= 0 && b >= 0 then XorNat(a, b)
    else if a < 0 && b < 0 then XorNat(-a - 1, -b - 1)
    else if a < 0 then -1 - XorNat(-a - 1, b)
    else -1 - XorNat(a, -b - 1)
  }

  /** Python's `bin(v).count("1")`: `bin` writes the magnitude after a
      minus sign, so the count is that of `|v|`. */
  function PopcountInt(v: int): (c: nat)
    ensures c == 0 <==> v == 0
  {
    if v >= 0 then Popcount(v) else Popcount(-v)
  }

  /** Score of one aligned pair of fingerprint codes: 32 minus the number of
      differing bits (correlation.py, the body of the scoring loop). */
  function PairScore(x: int, y: int): (score: int)
    ensures score <= 32
  {
    32 - PopcountInt(XorInt(x, y))
  }

  /** Reference definition: the number of bit positions below `k` at which
      `x` and `y` hold the same bit. */
  function AgreeBits(x: nat, y: nat, k: nat): nat {
    if k == 0 then 0
    else (if x % 2 == y % 2 then 1 else 0) + AgreeBits(x / 2, y / 2, k - 1)
  }

  /** The low bit of an exclusive or is the inequality of the low bits, and
      the higher bits are the exclusive or of the higher bits. */
  lemma XorNatStep(a: nat, b: nat)
    ensures XorNat(a, b) == 2 * XorNat(a / 2, b / 2) + (if a % 2 == b % 2 then 0 else 1)
  {
    if a == 0 {
      assert XorNat(a / 2, b / 2) == b / 2;
    } else if b == 0 {
      if a / 2 == 0 {
        assert XorNat(a / 2, b / 2) == 0;
      } else {
        assert XorNat(a / 2, b / 2) == a / 2;
      }
    }
  }

  lemma {:induction false} XorNatSelf(a: nat)
    ensures XorNat(a, a) == 0
    decreases a
  {
    if a != 0 {
      XorNatSelf(a / 2);
    }
  }

  lemma {:induction false} XorNatCommutes(a: nat, b: nat)
    ensures XorNat(a, b) == XorNat(b, a)
    decreases a + b
  {
    if a != 0 && b != 0 {
      XorNatCommutes(a / 2, b / 2);
    }
  }

  /** Among `k` bit positions, the agreeing and the differing ones add up to
      `k`; the differing ones are the one bits of the exclusive or. */
  lemma {:induction false} AgreeBitsComplementsXor(x: nat, y: nat, k: nat)
    requires x < Pow2(k) && y < Pow2(k)
    ensures AgreeBits(x, y, k) + Popcount(XorNat(x, y)) == k
    decreases k
  {
    if k > 0 {
      XorNatStep(x, y);
      var z := XorNat(x, y);
      assert z / 2 == XorNat(x / 2, y / 2);
      assert z % 2 == (if x % 2 == y % 2 then 0 else 1);
      assert Popcount(z) == z % 2 + Popcount(z / 2);
      AgreeBitsComplementsXor(x / 2, y / 2, k - 1);
    }
  }

  /** For two unsigned 32-bit codes the pair score is exactly the number of
      agreeing bit positions, hence lies between 0 and 32. */
  lemma PairScoreCountsAgreeingBits(x: int, y: int)
    requires 0 <= x < Uint32Limit && 0 <= y < Uint32Limit
    ensures PairScore(x, y) == AgreeBits(x, y, 32)
    ensures 0 <= PairScore(x, y) <= 32
  {
    Pow2ThirtyTwo();
    AgreeBitsComplementsXor(x, y, 32);
  }

  /** Every code agrees with itself in all 32 positions, whatever its sign. */
  lemma PairScoreSelf(x: int)
    ensures PairScore(x, x) == 32
  {
    if x >= 0 {
      XorNatSelf(x);
    } else {
      XorNatSelf(-x - 1);
    }
  }

  lemma {:induction false} XorNatZero(a: nat, b: nat)
    ensures XorNat(a, b) == 0 <==> a == b
    decreases a + b
  {
    if a != 0 && b != 0 {
      XorNatZero(a / 2, b / 2);
    } else if a == b {
      XorNatSelf(a);
    }
  }

  /** A pair scores the full 32 exactly when its two codes are equal. */
  lemma PairScoreFullIffEqual(x: int, y: int)
    ensures PairScore(x, y) == 32 <==> x == y
  {
    if x >= 0 && y >= 0 {
      XorNatZero(x, y);
    } else if x < 0 && y < 0 {
      XorNatZero(-x - 1, -y - 1);
    }
  }

  /** The pair score does not depend on the order of the pair. */
  lemma PairScoreSymmetric(x: int, y: int)
    ensures PairScore(x, y) == PairScore(y, x)
  {
    if x >= 0 && y >= 0 {
      XorNatCommutes(x, y);
    } else if x < 0 && y < 0 {
      XorNatCommutes(-x - 1, -y - 1);
    } else if x < 0 {
      XorNatCommutes(-x - 1, y);
    } else {
      XorNatCommutes(x, -y - 1);
    }
  }
}

=== FILE: curve.dfy ===
/** Scoring one fingerprint against another at every scanned offset
    (`cross_correlation` and `compare_fingerprints` in correlation.py). */
module Curve {
  import opened Types
  import opened Similarity

  /** Python's `s[k:]` for `k >= 0`: empty once `k` passes the end. */
  function Drop(s: seq<int>, k: nat): seq<int> {
    if k <= |s| then s[k..] else []
  }

  /** Python's `s[:k]` for `k >= 0`: the whole list once `k` passes the end. */
  function Take(s: seq<int>, k: nat): seq<int> {
    if k <= |s| then s[..k] else s
  }

  /** Number of aligned positions when the second fingerprint is moved
      `offset` positions against the first: a positive offset skips the
      first `offset` codes of the first fingerprint, a negative one skips
      `-offset` codes of the second. */
  function Overlap(lx: nat, ly: nat, offset: int): nat {
    var n := Min(lx - Max(offset, 0), ly - Max(-offset, 0));
    if n < 0 then 0 else n
  }

  /** Reference alignment by index arithmetic: the `Overlap` codes of each
      fingerprint that face each other at `offset`. */
  function Aligned(xs: seq<int>, ys: seq<int>, offset: int): (seq<int>, seq<int>) {
    var n := Overlap(|xs|, |ys|, offset);
    var dx, dy := Max(offset, 0), Max(-offset, 0);
    if n == 0 then ([], []) else (xs[dx..dx + n], ys[dy..dy + n])
  }

  /** The slicing of `cross_correlation`: positive offsets drop codes from
      the front of `xs` and cap `ys` at what is left, negative offsets drop
      codes from the front of `ys` and cap `xs`, offset 0 leaves both. */
  function Shift(xs: seq<int>, ys: seq<int>, offset: int): (r: (seq<int>, seq<int>))
    ensures |r.0| <= |xs| && |r.1| <= |ys|
    ensures offset == 0 ==> r == (xs, ys)
  {
    if offset > 0 then
      var sx := Drop(xs, offset);
      (sx, Take(ys, |sx|))
    else if offset < 0 then
      var sy := Drop(ys, -offset);
      (Take(xs, |sy|), sy)
    else
      (xs, ys)
  }

  /** The slicing aligns exactly the codes the index arithmetic of `Aligned`
      pairs up: the shorter shifted list has `Overlap` codes, its `i`-th
      codes are `xs[i + max(offset, 0)]` and `ys[i + max(-offset, 0)]`, the
      capped list is never the longer one, and offset 0 changes nothing. */
  lemma ShiftAligns(xs: seq<int>, ys: seq<int>, offset: int)
    ensures var (sx, sy) := Shift(xs, ys, offset);
      && Min(|sx|, |sy|) == Overlap(|xs|, |ys|, offset)
      && (forall i :: 0 <= i < Overlap(|xs|, |ys|, offset) ==>
            sx[i] == xs[i + Max(offset, 0)] && sy[i] == ys[i + Max(-offset, 0)])
      && (offset > 0 ==> |sy| <= |sx|)
      && (offset < 0 ==> |sx| <= |sy|)
      && (offset == 0 ==> sx == xs && sy == ys)
  {
  }

  /** The common prefix of the shifted lists is the reference alignment. */
  lemma ShiftPrefixIsAligned(xs: seq<int>, ys: seq<int>, offset: int)
    ensures var (sx, sy) := Shift(xs, ys, offset);
      var n := Min(|sx|, |sy|);
      sx[..n] == Aligned(xs, ys, offset).0 && sy[..n] == Aligned(xs, ys, offset).1
  {
    ShiftAligns(xs, ys, offset);
  }

  /** Score at one offset, or `None` exactly when fewer than `minOverlap`
      positions face each other. */
  function CrossCorrelation(xs: seq<int>, ys: seq<int>, offset: int, minOverlap: int): (r: Option<real>)
    ensures r.None? <==> Overlap(|xs|, |ys|, offset) < minOverlap
  {
    var (sx, sy) := Shift(xs, ys, offset);
    ShiftAligns(xs, ys, offset);
    if Min(|sx|, |sy|) < minOverlap then None
    else Some(Correlation(sx, sy))
  }

  /** A defined score is the bit-agreement fraction of exactly the codes
      that face each other at that offset. */
  lemma CrossCorrelationScoresAligned(xs: seq<int>, ys: seq<int>, offset: int, minOverlap: int)
    ensures CrossCorrelation(xs, ys, offset, minOverlap).Some? ==>
      CrossCorrelation(xs, ys, offset, minOverlap).value
        == Correlation(Aligned(xs, ys, offset).0, Aligned(xs, ys, offset).1)
  {
    var (sx, sy) := Shift(xs, ys, offset);
    CorrelationOfCommonPrefix(sx, sy);
    ShiftPrefixIsAligned(xs, ys, offset);
  }

  /** With a positive minimum overlap, a defined score never comes from
      the empty-list branch of `Correlation`: both shifted lists are
      nonempty. */
  lemma CrossCorrelationScoresNonemptyLists(xs: seq<int>, ys: seq<int>, offset: int, minOverlap: int)
    requires minOverlap > 0
    ensures CrossCorrelation(xs, ys, offset, minOverlap).Some? ==>
      |Shift(xs, ys, offset).0| > 0 && |Shift(xs, ys, offset).1| > 0
  {
    ShiftAligns(xs, ys, offset);
  }

  /** Number of offsets `numpy.arange(-span, span + 1, step)` enumerates:
      the ceiling of `(2 * span + 1) / step`, or none for a negative span. */
  function NumOffsets(span: int, step: int): (count: nat)
    requires step > 0
    ensures span < 0 ==> count == 0
    ensures span >= 0 ==> (count - 1) * step <= 2 * span < count * step
  {
    if span < 0 then 0
    else
      var a := 2 * span + step;
      var q := a / step;
      assert a == q * step + a % step;
      assert (q - 1) * step == q * step - step;
      q
  }

  /** The offset scanned at curve index `i`. */
  function OffsetAt(span: int, step: int, i: nat): int {
    -span + i * step
  }

  /** A negative span is the only way two nonempty fingerprints get an
      empty curve. */
  lemma NumOffsetsZero(span: int, step: int)
    requires step > 0
    ensures NumOffsets(span, step) == 0 <==> span < 0
  {
    if span >= 0 {
      DivAddDivisor(2 * span, step);
    }
  }

  lemma DivUnique(a: int, b: int, q: int, r: int)
    requires b > 0 && 0 <= r < b && a == q * b + r
    ensures a / b == q
  {
    var q', r' := a / b, a % b;
    var d := q' - q;
    assert d * b == r - r' by {
      assert q' * b - q * b == (q' - q) * b;
    }
    if d >= 1 {
      MulAtLeast(d, b);
    } else if d <= -1 {
      MulAtLeast(-d, b);
    }
  }

  lemma MulAtLeast(k: int, b: int)
    requires k >= 1 && b > 0
    ensures k * b >= b
  {
    assert k * b == (k - 1) * b + b;
  }

  lemma DivAddDivisor(a: int, b: int)
    requires b > 0
    ensures (a + b) / b == a / b + 1
  {
    var q, r := a / b, a % b;
    assert a + b == (q + 1) * b + r;
    DivUnique(a + b, b, q + 1, r);
  }

  /** Scanning from `offset` enumerates one offset more than scanning from
      `offset + step`. */
  lemma ScanCountStep(offset: int, stop: int, step: int)
    requires step > 0 && offset < stop
    ensures (stop - offset + step - 1) / step
      == 1 + (if offset + step < stop then (stop - (offset + step) + step - 1) / step else 0)
  {
    if offset + step < stop {
      DivAddDivisor(stop - offset - 1, step);
    } else {
      DivUnique(stop - offset + step - 1, step, 1, stop - offset - 1);
    }
  }

  lemma ShiftedIndex(offset: int, step: int, i: int)
    ensures offset + i * step == (offset + step) + (i - 1) * step
  {
  }

  /** Putting the entry of `offset` in front of the entries from
      `offset + step` on gives the entries from `offset` on. */
  lemma ScanConsEntries(xs: seq<int>, ys: seq<int>, offset: int, step: int, minOverlap: int,
                        rest: seq<Option<real>>)
    requires forall i :: 0 <= i < |rest| ==>
      rest[i] == CrossCorrelation(xs, ys, (offset + step) + i * step, minOverlap)
    ensures var curve := [CrossCorrelation(xs, ys, offset, minOverlap)] + rest;
      forall i :: 0 <= i < |curve| ==>
        curve[i] == CrossCorrelation(xs, ys, offset + i * step, minOverlap)
  {
    var curve := [CrossCorrelation(xs, ys, offset, minOverlap)] + rest;
    forall i | 0 <= i < |curve|
      ensures curve[i] == CrossCorrelation(xs, ys, offset + i * step, minOverlap)
    {
      if i == 0 {
        assert offset + i * step == offset;
      } else {
        assert curve[i] == rest[i - 1];
        ShiftedIndex(offset, step, i);
      }
    }
  }

  /** The loop over `numpy.arange(offset, stop, step)`: one entry per offset
      `offset, offset + step, ...` below `stop`, in that order. */
  function Scan(xs: seq<int>, ys: seq<int>, offset: int, stop: int, step: int, minOverlap: int)
    : (curve: seq<Option<real>>)
    requires step > 0
    ensures |curve| == if offset < stop then (stop - offset + step - 1) / step else 0
    ensures forall i :: 0 <= i < |curve| ==>
      curve[i] == CrossCorrelation(xs, ys, offset + i * step, minOverlap)
    decreases stop - offset
  {
    if offset >= stop then []
    else
      var rest := Scan(xs, ys, offset + step, stop, step, minOverlap);
      ScanCountStep(offset, stop, step);
      var curve := [CrossCorrelation(xs, ys, offset, minOverlap)] + rest;
      ScanConsEntries(xs, ys, offset, step, minOverlap, rest);
      curve
  }

  /** The correlation curve: no entries when either fingerprint is empty;
      otherwise entry `i` is the score at offset `-span + i * step`, for
      every such offset up to `span`, which is `2 * span + 1` entries at
      unit step. */
  function CompareFingerprints(xs: seq<int>, ys: seq<int>, cfg: Config): (curve: seq<Option<real>>)
    requires cfg.Valid()
    ensures |xs| == 0 || |ys| == 0 ==> curve == []
    ensures |xs| > 0 && |ys| > 0 ==> |curve| == NumOffsets(cfg.span, cfg.step)
    ensures cfg.step == 1 && cfg.span >= 0 && |xs| > 0 && |ys| > 0 ==> |curve| == 2 * cfg.span + 1
    ensures forall i :: 0 <= i < |curve| ==>
      -cfg.span <= OffsetAt(cfg.span, cfg.step, i) <= cfg.span
      && curve[i] == CrossCorrelation(xs, ys, OffsetAt(cfg.span, cfg.step, i), cfg.minOverlap)
  {
    if |xs| == 0 || |ys| == 0 then []
    else
      var curve := Scan(xs, ys, -cfg.span, cfg.span + 1, cfg.step, cfg.minOverlap);
      assert forall i :: 0 <= i < |curve| ==> OffsetAt(cfg.span, cfg.step, i) < cfg.span + 1 by {
        forall i | 0 <= i < |curve|
          ensures OffsetAt(cfg.span, cfg.step, i) < cfg.span + 1
        {
          OffsetBelowStop(-cfg.span, cfg.span + 1, cfg.step, i);
        }
      }
      curve
  }

  /** An index below the ceiling of `(stop - offset) / step` names an offset
      below `stop`. */
  lemma OffsetBelowStop(offset: int, stop: int, step: int, i: nat)
    requires step > 0 && offset < stop && i < (stop - offset + step - 1) / step
    ensures offset + i * step < stop
  {
    var a := stop - offset + step - 1;
    assert a == (a / step) * step + a % step;
    assert i + 1 <= a / step;
    assert (i + 1) * step <= (a / step) * step;
  }

  /** The warning condition of `compare_fingerprints`: a span larger than the
      shorter fingerprint. It is only reported; the curve does not depend on
      it. */
  predicate SpanExceedsSample(xs: seq<int>, ys: seq<int>, span: int) {
    span > Min(|xs|, |ys|)
  }

  /** Every offset `o` between `-span` and `span` that lies on the step grid
      is scanned, at index `(o + span) / step`. */
  lemma OffsetScanned(span: int, step: int, o: int)
    requires step > 0 && -span <= o <= span && (o + span) % step == 0
    ensures (o + span) / step < NumOffsets(span, step)
    ensures OffsetAt(span, step, (o + span) / step) == o
  {
    var i := (o + span) / step;
    assert o + span == i * step;
    assert (i + 1) * step <= 2 * span + step;
    DivAtLeast(2 * span + step, step, i + 1);
  }

  /** `k * b <= a` bounds the quotient `a / b` from below by `k`. */
  lemma DivAtLeast(a: int, b: int, k: int)
    requires b > 0 && k * b <= a
    ensures k <= a / b
  {
    var q := a / b;
    assert a == q * b + a % b;
    assert k * b < (q + 1) * b;
    MulStrictMonotone(k, q + 1, b);
  }

  lemma MulStrictMonotone(x: int, y: int, b: int)
    requires b > 0 && x * b < y * b
    ensures x < y
  {
  }

  /** No offset can align more positions than the shorter fingerprint has. */
  lemma OverlapAtMostShorter(lx: nat, ly: nat, offset: int)
    ensures Overlap(lx, ly, offset) <= Min(lx, ly)
  {
  }

  /** Fingerprints shorter than the minimum overlap leave every curve entry
      undefined, whatever the span and step. */
  lemma ShortFingerprintsUndefined(xs: seq<int>, ys: seq<int>, cfg: Config)
    requires cfg.Valid() && Min(|xs|, |ys|) < cfg.minOverlap
    ensures forall i :: 0 <= i < |CompareFingerprints(xs, ys, cfg)| ==>
      CompareFingerprints(xs, ys, cfg)[i].None?
  {
    var curve := CompareFingerprints(xs, ys, cfg);
    forall i | 0 <= i < |curve|
      ensures curve[i].None?
    {
      OverlapAtMostShorter(|xs|, |ys|, OffsetAt(cfg.span, cfg.step, i));
    }
  }

  /** Defined scores of unsigned 32-bit fingerprints lie between 0 and 1. */
  lemma CrossCorrelationInUnitInterval(xs: seq<int>, ys: seq<int>, offset: int, minOverlap: int)
    requires IsUint32Seq(xs) && IsUint32Seq(ys)
    ensures CrossCorrelation(xs, ys, offset, minOverlap).Some? ==>
      0.0 <= CrossCorrelation(xs, ys, offset, minOverlap).value <= 1.0
  {
    var (ax, ay) := Aligned(xs, ys, offset);
    CrossCorrelationScoresAligned(xs, ys, offset, minOverlap);
    CorrelationInUnitInterval(ax, ay);
  }

  /** Every defined entry of the curve of two unsigned 32-bit fingerprints
      lies between 0 and 1. */
  lemma CurveInUnitInterval(xs: seq<int>, ys: seq<int>, cfg: Config)
    requires cfg.Valid() && IsUint32Seq(xs) && IsUint32Seq(ys)
    ensures forall i :: (0 <= i < |CompareFingerprints(xs, ys, cfg)| &&
      CompareFingerprints(xs, ys, cfg)[i].Some?) ==>
      0.0 <= CompareFingerprints(xs, ys, cfg)[i].value <= 1.0
  {
    var curve := CompareFingerprints(xs, ys, cfg);
    forall i | 0 <= i < |curve| && curve[i].Some?
      ensures 0.0 <= curve[i].value <= 1.0
    {
      CrossCorrelationInUnitInterval(xs, ys, OffsetAt(cfg.span, cfg.step, i), cfg.minOverlap);
    }
  }

  /** No defined score exceeds 1, whatever integers the fingerprints hold. */
  lemma CrossCorrelationAtMostOne(xs: seq<int>, ys: seq<int>, offset: int, minOverlap: int)
    ensures CrossCorrelation(xs, ys, offset, minOverlap).Some? ==>
      CrossCorrelation(xs, ys, offset, minOverlap).value <= 1.0
  {
    var (sx, sy) := Shift(xs, ys, offset);
    CorrelationAtMostOne(sx, sy);
  }

  /** No defined entry of any curve exceeds 1. */
  lemma CurveAtMostOne(xs: seq<int>, ys: seq<int>, cfg: Config)
    requires cfg.Valid()
    ensures forall i :: (0 <= i < |CompareFingerprints(xs, ys, cfg)| &&
      CompareFingerprints(xs, ys, cfg)[i].Some?) ==>
      CompareFingerprints(xs, ys, cfg)[i].value <= 1.0
  {
    var curve := CompareFingerprints(xs, ys, cfg);
    forall i | 0 <= i < |curve| && curve[i].Some?
      ensures curve[i].value <= 1.0
    {
      CrossCorrelationAtMostOne(xs, ys, OffsetAt(cfg.span, cfg.step, i), cfg.minOverlap);
    }
  }

  /** Moving the second fingerprint by `offset` against the first scores the
      same as moving the first by `-offset` against the second. */
  lemma CrossCorrelationSwap(xs: seq<int>, ys: seq<int>, offset: int, minOverlap: int)
    ensures CrossCorrelation(xs, ys, offset, minOverlap) == CrossCorrelation(ys, xs, -offset, minOverlap)
  {
    var a := CrossCorrelation(xs, ys, offset, minOverlap);
    var b := CrossCorrelation(ys, xs, -offset, minOverlap);
    AlignedSwap(xs, ys, offset);
    assert a.Some? == b.Some?;
    if a.Some? {
      var (ax, ay) := Aligned(xs, ys, offset);
      CrossCorrelationScoresAligned(xs, ys, offset, minOverlap);
      CrossCorrelationScoresAligned(ys, xs, -offset, minOverlap);
      CorrelationSymmetric(ax, ay);
      assert a.value == b.value;
    }
  }

  lemma AlignedSwap(xs: seq<int>, ys: seq<int>, offset: int)
    ensures Overlap(|xs|, |ys|, offset) == Overlap(|ys|, |xs|, -offset)
    ensures Aligned(ys, xs, -offset) == (Aligned(xs, ys, offset).1, Aligned(xs, ys, offset).0)
  {
  }

  /** An offset whose aligned codes are identical scores 1. */
  lemma CrossCorrelationPerfect(xs: seq<int>, ys: seq<int>, offset: int, minOverlap: int)
    requires minOverlap > 0 && Overlap(|xs|, |ys|, offset) >= minOverlap
    requires Aligned(xs, ys, offset).0 == Aligned(xs, ys, offset).1
    ensures CrossCorrelation(xs, ys, offset, minOverlap) == Some(1.0)
  {
    CrossCorrelationScoresAligned(xs, ys, offset, minOverlap);
    CorrelationSelf(Aligned(xs, ys, offset).0);
  }
}

=== FILE: fptext.dfy ===
/** Reading a fingerprint out of the fingerprinting tool's text output (the
    parsing half of `calculate_fingerprints` in correlation.py), together
    with a renderer of that format and the round trip between the two. */
module FingerprintText {
  import opened Types

  /** The key that introduces the comma-separated codes. */
  const Marker: string := "FINGERPRINT="

  /** `pat` occurs in `s` starting at index `i`. */
  predicate OccursAt(s: string, pat: string, i: int) {
    0 <= i && i + |pat| <= |s| && s[i..i + |pat|] == pat
  }

  /** Python's `s.find(pat, start)`: the lowest index from `start` on at
      which `pat` occurs, or -1. */
  function FindFrom(s: string, pat: string, start: nat): (k: int)
    ensures k == -1 || (start <= k && OccursAt(s, pat, k))
    ensures forall i :: start <= i && (k == -1 || i < k) ==> !OccursAt(s, pat, i)
    decreases |s| - start
  {
    if start + |pat| > |s| then -1
    else if s[start..start + |pat|] == pat then start
    else FindFrom(s, pat, start + 1)
  }

  function Find(s: string, pat: string): (k: int)
    ensures k == -1 <==> forall i :: !OccursAt(s, pat, i)
    ensures k != -1 ==> OccursAt(s, pat, k) && forall i :: i < k ==> !OccursAt(s, pat, i)
  {
    FindFrom(s, pat, 0)
  }

  /** Characters Python's `int()` discards around its argument: the six
      ASCII spaces (space, tab, line feed, vertical tab, form feed, carriage
      return) and the non-ASCII characters Python counts as white space. The
      ASCII separator controls U+001C to U+001F are not among them. */
  const SpaceChars: set<char> := {
    '\t', '\n', '\U{000B}', '\U{000C}', '\r',
    ' ', '\U{0085}', '\U{00A0}', '\U{1680}', '\U{2000}', '\U{2001}', '\U{2002}', '\U{2003}',
    '\U{2004}', '\U{2005}', '\U{2006}', '\U{2007}', '\U{2008}', '\U{2009}', '\U{200A}',
    '\U{2028}', '\U{2029}', '\U{202F}', '\U{205F}', '\U{3000}'
  }

  predicate IsSpace(c: char) {
    c in SpaceChars
  }

  predicate IsDigit(c: char) {
    '0' <= c <= '9'
  }

  function DigitValue(c: char): nat
    requires IsDigit(c)
  {
    (c as int) - ('0' as int)
  }

  function DigitChar(d: nat): (c: char)
    requires d < 10
    ensures IsDigit(c) && DigitValue(c) == d
  {
    ('0' as int + d) as char
  }

  function StripLeft(s: string): (t: string)
    ensures |t| > 0 ==> !IsSpace(t[0])
    decreases |s|
  {
    if |s| > 0 && IsSpace(s[0]) then StripLeft(s[1..]) else s
  }

  function StripRight(s: string): (t: string)
    ensures |t| > 0 ==> !IsSpace(t[|t| - 1])
    ensures |t| <= |s| && t == s[..|t|]
    decreases |s|
  {
    if |s| > 0 && IsSpace(s[|s| - 1]) then StripRight(s[..|s| - 1]) else s
  }

  /** The digits of a decimal literal: digits, with single underscores
      allowed between two digits. */
  predicate IsDigitGroup(b: string) {
    && |b| > 0
    && IsDigit(b[0])
    && IsDigit(b[|b| - 1])
    && (forall i :: 0 <= i < |b| ==> IsDigit(b[i]) || b[i] == '_')
    && (forall i :: 0 <= i < |b| - 1 ==> b[i] == '_' ==> b[i + 1] != '_')
  }

  /** Value of a digit group, underscores ignored. */
  function DigitsValue(b: string): nat
    requires forall i :: 0 <= i < |b| ==> IsDigit(b[i]) || b[i] == '_'
    decreases |b|
  {
    if |b| == 0 then 0
    else if b[|b| - 1] == '_' then DigitsValue(b[..|b| - 1])
    else 10 * DigitsValue(b[..|b| - 1]) + DigitValue(b[|b| - 1])
  }

  /** Python's `int(field)` in base 10: surrounding whitespace ignored, an
      optional sign, then a digit group; anything else is a `ValueError`,
      here `None`. */
  function ParseInt(field: string): (r: Option<int>)
    ensures r.Some? ==> |field| > 0
  {
    ParseStripped(StripRight(StripLeft(field)))
  }

  /** `int()` once the surrounding whitespace is gone. */
  function ParseStripped(t: string): Option<int> {
    if |t| == 0 then None
    else
      var neg := t[0] == '-';
      var body := if t[0] == '-' || t[0] == '+' then t[1..] else t;
      if !IsDigitGroup(body) then None
      else
        var magnitude: int := DigitsValue(body);
        Some(if neg then -magnitude else magnitude)
  }

  /** Stripping from the left keeps a suffix. */
  lemma {:induction false} StripLeftSuffix(s: string)
    ensures |StripLeft(s)| <= |s|
    ensures StripLeft(s) == s[|s| - |StripLeft(s)|..]
    decreases |s|
  {
    if |s| > 0 && IsSpace(s[0]) {
      StripLeftSuffix(s[1..]);
    }
  }

  /** A field `int()` accepts contains a decimal digit; a field of spaces
      only is rejected. */
  lemma ParseIntNeedsDigit(field: string)
    ensures ParseInt(field).Some? ==> exists i :: 0 <= i < |field| && IsDigit(field[i])
    ensures (forall i :: 0 <= i < |field| ==> IsSpace(field[i])) ==> ParseInt(field).None?
  {
    var left := StripLeft(field);
    var t := StripRight(left);
    StripLeftSuffix(field);
    if |left| > 0 {
      assert left[0] == field[|field| - |left|];
    }
    if ParseInt(field).Some? {
      var body := if t[0] == '-' || t[0] == '+' then t[1..] else t;
      var at := |field| - |left| + |t| - |body|;
      assert field[at] == body[0];
    }
  }

  predicate AllSpace(s: string) {
    forall i :: 0 <= i < |s| ==> IsSpace(s[i])
  }

  /** `field` is `pre + sign + d + post`: whitespace, an optional sign, a
      digit group, whitespace. */
  predicate IsIntLiteral(field: string, pre: string, sign: string, d: string, post: string) {
    && AllSpace(pre) && AllSpace(post)
    && (sign == "" || sign == "+" || sign == "-")
    && IsDigitGroup(d)
    && field == pre + sign + d + post
  }

  /** The number such a literal denotes. */
  function LiteralValue(sign: string, d: string): int
    requires IsDigitGroup(d)
  {
    var magnitude: int := DigitsValue(d);
    if sign == "-" then -magnitude else magnitude
  }

  /** Leading whitespace is stripped up to the first non-space. */
  lemma {:induction false} StripLeftSpaces(pre: string, rest: string)
    requires AllSpace(pre)
    requires |rest| > 0 && !IsSpace(rest[0])
    ensures StripLeft(pre + rest) == rest
    decreases |pre|
  {
    if |pre| > 0 {
      assert (pre + rest)[1..] == pre[1..] + rest;
      StripLeftSpaces(pre[1..], rest);
    } else {
      assert pre + rest == rest;
    }
  }

  /** Trailing whitespace is stripped back to the last non-space. */
  lemma {:induction false} StripRightSpaces(core: string, post: string)
    requires AllSpace(post)
    requires |core| > 0 && !IsSpace(core[|core| - 1])
    ensures StripRight(core + post) == core
    decreases |post|
  {
    if |post| > 0 {
      var s := core + post;
      assert s[..|s| - 1] == core + post[..|post| - 1];
      StripRightSpaces(core, post[..|post| - 1]);
    } else {
      assert core + post == core;
    }
  }

  /** What `StripLeft` removes is whitespace. */
  lemma {:induction false} StripLeftRemovesSpaces(s: string)
    ensures |StripLeft(s)| <= |s|
    ensures AllSpace(s[..|s| - |StripLeft(s)|])
    decreases |s|
  {
    if |s| > 0 && IsSpace(s[0]) {
      StripLeftRemovesSpaces(s[1..]);
      var k := |s| - |StripLeft(s)|;
      assert forall i :: 1 <= i < k ==> s[..k][i] == s[1..][..k - 1][i - 1];
    }
  }

  /** What `StripRight` removes is whitespace. */
  lemma {:induction false} StripRightRemovesSpaces(s: string)
    ensures AllSpace(s[|StripRight(s)|..])
    decreases |s|
  {
    if |s| > 0 && IsSpace(s[|s| - 1]) {
      var u := s[..|s| - 1];
      StripRightRemovesSpaces(u);
      var k := |StripRight(s)|;
      assert forall i :: k <= i < |s| - 1 ==> s[i] == u[k..][i - k];
    }
  }

  /** Every literal `int()` accepts parses to the number it denotes. */
  lemma ParseIntAcceptsLiterals(field: string, pre: string, sign: string, d: string, post: string)
    requires IsIntLiteral(field, pre, sign, d, post)
    ensures ParseInt(field) == Some(LiteralValue(sign, d))
  {
    var core := sign + d;
    var rest := core + post;
    assert field == pre + rest;
    assert rest[0] == core[0] && core[|core| - 1] == d[|d| - 1];
    assert !IsSpace(core[0]) && !IsSpace(core[|core| - 1]) by {
      assert IsDigit(d[0]) && IsDigit(d[|d| - 1]);
    }
    StripLeftSpaces(pre, rest);
    StripRightSpaces(core, post);
    SignedBody(sign, d);
  }

  /** After stripping, the sign and the digit group are told apart. */
  lemma SignedBody(sign: string, d: string)
    requires (sign == "" || sign == "+" || sign == "-") && IsDigitGroup(d)
    ensures var t := sign + d;
      && (t[0] == '-' <==> sign == "-")
      && (if t[0] == '-' || t[0] == '+' then t[1..] else t) == d
  {
    var t := sign + d;
    if sign == "" {
      assert t == d;
      assert IsDigit(d[0]);
    } else {
      assert t[1..] == d;
    }
  }

  /** Everything `int()` accepts is such a literal. */
  lemma ParseIntOnlyLiterals(field: string)
    ensures ParseInt(field).Some? ==>
      exists pre, sign, d, post :: IsIntLiteral(field, pre, sign, d, post)
        && ParseInt(field) == Some(LiteralValue(sign, d))
  {
    if ParseInt(field).Some? {
      var pre, t, post := StrippedParts(field);
      AcceptedShape(field);
      var sign := if t[0] == '-' then "-" else if t[0] == '+' then "+" else "";
      var d := if sign != "" then t[1..] else t;
      assert t == sign + d by {
        if sign != "" {
          assert t == [t[0]] + t[1..];
        }
      }
      assert ParseInt(field) == Some(LiteralValue(sign, d));
      LiteralParts(field, pre, t, post, sign, d);
    }
  }

  /** Python's `int()` grammar, both ways: a field parses exactly when it is
      whitespace, an optional sign, a digit group and whitespace, and then
      to the number that literal denotes. */
  lemma ParseIntGrammar(field: string)
    ensures ParseInt(field).Some? <==>
      exists pre, sign, d, post :: IsIntLiteral(field, pre, sign, d, post)
    ensures forall pre, sign, d, post | IsIntLiteral(field, pre, sign, d, post) ::
      ParseInt(field) == Some(LiteralValue(sign, d))
  {
    ParseIntOnlyLiterals(field);
    forall pre, sign, d, post | IsIntLiteral(field, pre, sign, d, post)
      ensures ParseInt(field) == Some(LiteralValue(sign, d))
    {
      ParseIntAcceptsLiterals(field, pre, sign, d, post);
    }
  }

  /** A field is its stripped core between two runs of whitespace. */
  lemma StrippedParts(field: string) returns (pre: string, t: string, post: string)
    ensures t == StripRight(StripLeft(field))
    ensures AllSpace(pre) && AllSpace(post) && field == pre + (t + post)
  {
    var left := StripLeft(field);
    StripLeftSuffix(field);
    StripLeftRemovesSpaces(field);
    t := StripRight(left);
    StripRightRemovesSpaces(left);
    pre := field[..|field| - |left|];
    post := left[|t|..];
    assert left == t + post;
    assert field == pre + left;
  }

  /** An accepted field strips to an optional sign and a digit group. */
  lemma AcceptedShape(field: string)
    requires ParseInt(field).Some?
    ensures var t := StripRight(StripLeft(field));
      && |t| > 0
      && var d := if t[0] == '-' || t[0] == '+' then t[1..] else t;
      && IsDigitGroup(d)
      && var magnitude: int := DigitsValue(d);
      && ParseInt(field) == Some(if t[0] == '-' then -magnitude else magnitude)
  {
  }

  lemma LiteralParts(field: string, pre: string, t: string, post: string, sign: string, d: string)
    requires AllSpace(pre) && AllSpace(post) && IsDigitGroup(d)
    requires (sign == "" || sign == "+" || sign == "-")
    requires field == pre + (t + post) && t == sign + d
    ensures IsIntLiteral(field, pre, sign, d, post)
  {
    assert pre + (sign + d + post) == pre + sign + d + post;
  }

  /** Index of the first `sep` in `s`. */
  function IndexOf(s: string, sep: char): (k: nat)
    requires sep in s
    ensures k < |s| && s[k] == sep && sep !in s[..k]
  {
    if s[0] == sep then 0
    else
      var k := 1 + IndexOf(s[1..], sep);
      assert s[..k] == [s[0]] + s[1..][..k - 1];
      k
  }

  /** `sep.join(fields)`. */
  function Join(fields: seq<string>, sep: char): string
    requires |fields| > 0
    decreases |fields|
  {
    if |fields| == 1 then fields[0] else fields[0] + [sep] + Join(fields[1..], sep)
  }

  /** Python's `s.split(sep)`: the pieces between separators, empty pieces
      kept, so there is always at least one; joining them gives `s` back. */
  function Split(s: string, sep: char): (fields: seq<string>)
    ensures |fields| > 0
    ensures forall i :: 0 <= i < |fields| ==> sep !in fields[i]
    ensures Join(fields, sep) == s
    decreases |s|
  {
    if sep !in s then [s]
    else
      var k := IndexOf(s, sep);
      var rest := Split(s[k + 1..], sep);
      var fields := [s[..k]] + rest;
      assert fields[1..] == rest;
      assert s == s[..k] + [sep] + s[k + 1..];
      fields
  }

  /** Splitting a join of separator-free pieces gives the pieces back. */
  lemma {:induction false} SplitJoin(fields: seq<string>, sep: char)
    requires |fields| > 0
    requires forall i :: 0 <= i < |fields| ==> sep !in fields[i]
    ensures Split(Join(fields, sep), sep) == fields
    decreases |fields|
  {
    if |fields| > 1 {
      var s := Join(fields, sep);
      var head := fields[0];
      assert sep !in head;
      assert s == head + [sep] + Join(fields[1..], sep);
      assert s[|head|] == sep && s[..|head|] == head;
      assert IndexOf(s, sep) == |head|;
      assert s[|head| + 1..] == Join(fields[1..], sep);
      SplitJoin(fields[1..], sep);
    }
  }

  /** `list(map(int, fields))`: every field converted, or `None` as soon as
      one is not an integer. */
  function ParseAll(fields: seq<string>): (r: Option<seq<int>>)
    ensures r.Some? <==> forall i :: 0 <= i < |fields| ==> ParseInt(fields[i]).Some?
    ensures r.Some? ==> |r.value| == |fields|
    ensures r.Some? ==> forall i :: 0 <= i < |fields| ==> r.value[i] == ParseInt(fields[i]).value
    decreases |fields|
  {
    if |fields| == 0 then Some([])
    else
      var head := ParseInt(fields[0]);
      var tail := ParseAll(fields[1..]);
      assert forall i :: 1 <= i < |fields| ==> fields[i] == fields[1..][i - 1];
      if head.None? then None
      else if tail.None? then
        assert exists j :: 0 <= j < |fields[1..]| && ParseInt(fields[1..][j]).None?;
        None
      else
        Some([head.value] + tail.value)
  }

  /** The fingerprint read from the tool's output: the integers after the
      first `FINGERPRINT=`, in order. The empty list signals failure, which
      happens exactly when the key is absent, nothing follows it, or some
      comma-separated field is not an integer; a success is never empty. */
  function ParseFingerprint(text: string): (fp: seq<int>)
    ensures (forall i :: !OccursAt(text, Marker, i)) ==> fp == []
    ensures fp != [] <==>
      && Find(text, Marker) != -1
      && |text| > Find(text, Marker) + |Marker|
      && ParseAll(Split(text[Find(text, Marker) + |Marker|..], ',')).Some?
    ensures fp != [] ==>
      var fields := Split(text[Find(text, Marker) + |Marker|..], ',');
      |fp| == |fields| && forall i :: 0 <= i < |fp| ==> Some(fp[i]) == ParseInt(fields[i])
  {
    var k := Find(text, Marker);
    if k == -1 then []
    else
      var rest := text[k + |Marker|..];
      if |rest| == 0 then []
      else
        match ParseAll(Split(rest, ','))
        case None => []
        case Some(vs) => vs
  }

  /** `int()` strips the non-ASCII space U+0085 but not the ASCII
      separator controls U+001C to U+001F, so a field padded with one of
      those is not an integer and the whole fingerprint is rejected. */
  lemma SeparatorControlsAreNotSpace()
    ensures ParseInt("\U{0085}7") == Some(7)
    ensures ParseInt("\U{001C}7").None? && ParseInt("7\U{001F}").None?
    ensures ParseFingerprint("FINGERPRINT=\U{001C}7") == []
  {
    assert !IsSpace('7') && !IsSpace('\U{001C}') && !IsSpace('\U{001F}');
    assert IsDigitGroup("7");
  }

  /** Decimal digits of a natural, most significant first. */
  function ShowNat(n: nat): (s: string)
    ensures |s| > 0 && forall i :: 0 <= i < |s| ==> IsDigit(s[i])
    decreases n
  {
    if n < 10 then [DigitChar(n)] else ShowNat(n / 10) + [DigitChar(n % 10)]
  }

  /** Python's `str(v)` for an integer. */
  function ShowInt(v: int): string {
    if v < 0 then "-" + ShowNat(-v) else ShowNat(v)
  }

  function ShowAll(xs: seq<int>): (fields: seq<string>)
    ensures |fields| == |xs|
    ensures forall i :: 0 <= i < |xs| ==> fields[i] == ShowInt(xs[i])
    decreases |xs|
  {
    if |xs| == 0 then [] else [ShowInt(xs[0])] + ShowAll(xs[1..])
  }

  /** The tool's output format for a fingerprint: the key, then the codes
      separated by commas. */
  function Render(xs: seq<int>): string
    requires |xs| > 0
  {
    Marker + Join(ShowAll(xs), ',')
  }

  lemma {:induction false} DigitsValueOfShowNat(n: nat)
    ensures DigitsValue(ShowNat(n)) == n
    decreases n
  {
    if n >= 10 {
      var s := ShowNat(n / 10);
      DigitsValueOfShowNat(n / 10);
      assert (s + [DigitChar(n % 10)])[..|s|] == s;
    }
  }

  /** Text that neither starts nor ends with whitespace is left alone by
      the stripping `int()` does. */
  lemma StripUnspaced(s: string)
    requires |s| > 0 && !IsSpace(s[0]) && !IsSpace(s[|s| - 1])
    ensures StripRight(StripLeft(s)) == s
  {
  }

  /** The decimal digits of a natural form a digit group worth that
      natural. */
  lemma ShowNatIsDigitGroup(n: nat)
    ensures IsDigitGroup(ShowNat(n))
    ensures DigitsValue(ShowNat(n)) == n
  {
    DigitsValueOfShowNat(n);
  }

  lemma DigitNotSpace(c: char)
    requires IsDigit(c)
    ensures !IsSpace(c)
  {
  }

  /** `int()` reads a digit group, bare or after a minus sign, as its value
      with that sign. */
  lemma ParseDigitGroup(digits: string)
    requires IsDigitGroup(digits)
    ensures ParseInt(digits) == Some(DigitsValue(digits))
    ensures ParseInt("-" + digits) == Some(0 - DigitsValue(digits))
  {
    DigitNotSpace(digits[0]);
    DigitNotSpace(digits[|digits| - 1]);
    StripUnspaced(digits);
    var s := "-" + digits;
    assert s[0] == '-' && s[1..] == digits && s[|s| - 1] == digits[|digits| - 1];
    StripUnspaced(s);
  }

  /** Rendering an integer and reading it back with `int()` gives it back. */
  lemma ParseShowInt(v: int)
    ensures ParseInt(ShowInt(v)) == Some(v)
  {
    var n: nat := if v < 0 then -v else v;
    ShowNatIsDigitGroup(n);
    ParseDigitGroup(ShowNat(n));
  }

  lemma ParseAllShowAll(xs: seq<int>)
    ensures ParseAll(ShowAll(xs)) == Some(xs)
  {
    var fields := ShowAll(xs);
    forall i | 0 <= i < |xs|
      ensures ParseInt(fields[i]) == Some(xs[i])
    {
      ParseShowInt(xs[i]);
    }
    assert ParseAll(fields).value == xs;
  }

  /** Reading back a rendered fingerprint gives it back, also when the key
      is preceded by other output (such as the tool's `DURATION=` line) that
      contains no `F`. */
  lemma ParseRender(prefix: string, xs: seq<int>)
    requires |xs| > 0
    requires 'F' !in prefix
    ensures ParseFingerprint(prefix + Render(xs)) == xs
  {
    var body := Join(ShowAll(xs), ',');
    var text := prefix + Render(xs);
    assert text == prefix + Marker + body;
    FindAfterPrefix(prefix, body);
    assert text[|prefix| + |Marker|..] == body;
    ShowAllCommaFree(xs);
    SplitJoin(ShowAll(xs), ',');
    ParseAllShowAll(xs);
  }

  /** The first occurrence of the key in output that starts with text free
      of `F` is right after that text. */
  lemma FindAfterPrefix(prefix: string, body: string)
    requires 'F' !in prefix
    ensures Find(prefix + Marker + body, Marker) == |prefix|
  {
    var text := prefix + Marker + body;
    assert OccursAt(text, Marker, |prefix|) by {
      assert text[|prefix|..|prefix| + |Marker|] == Marker;
    }
    forall i | i < |prefix|
      ensures !OccursAt(text, Marker, i)
    {
      if 0 <= i {
        assert text[i] == prefix[i];
        assert text[i..i + |Marker|][0] == text[i];
      }
    }
  }

  lemma ShowAllCommaFree(xs: seq<int>)
    ensures forall i :: 0 <= i < |ShowAll(xs)| ==> ',' !in ShowAll(xs)[i]
  {
    forall i | 0 <= i < |xs|
      ensures ',' !in ShowAll(xs)[i]
    {
      var d := if xs[i] < 0 then ShowNat(-xs[i]) else ShowNat(xs[i]);
      assert xs[i] < 0 ==> ShowInt(xs[i]) == "-" + d;
      assert forall j :: 0 <= j < |d| ==> d[j] != ',';
    }
  }
}

=== FILE: orchestrator.dfy ===
/** One end-to-end comparison (`correlate` in correlation.py). Running the
    fingerprinting tool is outside the model: each acquisition's result is
    a parameter, and the run records which acquisitions and which pause
    happen, in order. */
module Orchestrator {
  import opened Types
  import opened Curve
  import opened Selector
  import opened FingerprintText

  /** What one attempt to fingerprint a named input yields: the text of the
      tool's output (or of its cached copy), or the exception raised. */
  datatype Fetch =
    | Output(text: string)
    | ToolNotFound   // the fingerprinting tool is not installed
    | ToolFailed     // the tool exited with a non-zero status
    | OtherError     // any other exception while fingerprinting

  /** The two exceptions `correlate` re-raises to its caller. */
  datatype ToolError = NotFound | NonZeroExit

  /** A fingerprint read from one fetch. */
  datatype Acquired = Got(fp: seq<int>) | Unusable | Error(error: ToolError)

  /** Observable steps of a run: fingerprinting a named input, and the pause
      before fingerprinting a live input a second time. */
  datatype Event = Fingerprinted(name: string) | Sleep(seconds: int)

  /** How a comparison ends. The source returns the percentage for
      `Matched`, raises for `Raised`, and returns `None` for the other three,
      which it tells apart only by the message it prints. */
  datatype Outcome =
    | Matched(best: BestMatch)
    | InputFailure
    | EmptyCurve
    | Indeterminate
    | Raised(error: ToolError)

  datatype Run = Run(events: seq<Event>, outcome: Outcome)

  /** Reading one fetch: the parser's empty list and any unexpected
      exception make the fingerprint unusable; the two tool exceptions
      propagate. A usable fingerprint is never empty. */
  function ReadFingerprint(f: Fetch): (a: Acquired)
    ensures a.Got? ==> |a.fp| > 0
    ensures a.Got? <==> f.Output? && ParseFingerprint(f.text) != []
    ensures a.Error? <==> f.ToolNotFound? || f.ToolFailed?
  {
    match f
    case Output(text) =>
      var fp := ParseFingerprint(text);
      if fp == [] then Unusable else Got(fp)
    case ToolNotFound => Error(NotFound)
    case ToolFailed => Error(NonZeroExit)
    case OtherError => Unusable
  }

  /** The comparison: fingerprint the source; on success pause when the
      source is compared with itself and a positive delay is given; then
      fingerprint the target afresh; with both usable, build the curve and
      select its best match. */
  function Correlate(source: string, target: string, delay: int,
                     fetchSource: Fetch, fetchTarget: Fetch, cfg: Config): (run: Run)
    requires cfg.Valid()
    // the source is always fingerprinted first; the target only if that worked
    ensures |run.events| > 0 && run.events[0] == Fingerprinted(source)
    ensures !ReadFingerprint(fetchSource).Got? ==> run.events == [Fingerprinted(source)]
    ensures ReadFingerprint(fetchSource).Got? ==>
      run.events == [Fingerprinted(source)]
                    + (if source == target && delay > 0 then [Sleep(delay)] else [])
                    + [Fingerprinted(target)]
    // failures of either acquisition are never turned into a score
    ensures ReadFingerprint(fetchSource).Error? ==> run.outcome == Raised(ReadFingerprint(fetchSource).error)
    ensures ReadFingerprint(fetchSource).Unusable? ==> run.outcome == InputFailure
    ensures ReadFingerprint(fetchSource).Got? && ReadFingerprint(fetchTarget).Error? ==>
      run.outcome == Raised(ReadFingerprint(fetchTarget).error)
    ensures ReadFingerprint(fetchSource).Got? && ReadFingerprint(fetchTarget).Unusable? ==>
      run.outcome == InputFailure
    // with both fingerprints usable the result is the best match of the curve
    ensures ReadFingerprint(fetchSource).Got? && ReadFingerprint(fetchTarget).Got? ==>
      var curve := CompareFingerprints(ReadFingerprint(fetchSource).fp, ReadFingerprint(fetchTarget).fp, cfg);
      && (run.outcome.EmptyCurve? <==> cfg.span < 0)
      && (run.outcome.Indeterminate? <==> cfg.span >= 0 && AllUndefined(curve))
      && (run.outcome.Matched? ==> Some(run.outcome.best) == GetMaxCorr(curve, cfg))
      && (cfg.span >= 0 ==> GetMaxCorr(curve, cfg).Some? ==> run.outcome.Matched?)
    ensures run.outcome.Matched? ==>
      ReadFingerprint(fetchSource).Got? && ReadFingerprint(fetchTarget).Got?
  {
    var first := [Fingerprinted(source)];
    match ReadFingerprint(fetchSource)
    case Error(e) => Run(first, Raised(e))
    case Unusable => Run(first, InputFailure)
    case Got(fs) =>
      var pause := if source == target && delay > 0 then [Sleep(delay)] else [];
      var events := first + pause + [Fingerprinted(target)];
      match ReadFingerprint(fetchTarget)
      case Error(e) => Run(events, Raised(e))
      case Unusable => Run(events, InputFailure)
      case Got(ft) =>
        var curve := CompareFingerprints(fs, ft, cfg);
        NumOffsetsZero(cfg.span, cfg.step);
        if curve == [] then Run(events, EmptyCurve)
        else
          match GetMaxCorr(curve, cfg)
          case None => Run(events, Indeterminate)
          case Some(m) => Run(events, Matched(m))
  }
}

=== FILE: scenarios.dfy ===
/** Whole-comparison consequences of the engine, selector and orchestrator:
    what a comparison reports for identical, shifted and too-short inputs,
    and the range of the reported percentage. */
module Scenarios {
  import opened Types
  import opened Similarity
  import opened Curve
  import opened Selector
  import opened FingerprintText
  import opened Orchestrator

  /** The curve entry of a scanned offset `o` that aligns identical codes
      over at least the minimum overlap is exactly 1. */
  lemma PerfectEntry(xs: seq<int>, ys: seq<int>, cfg: Config, o: int)
    requires cfg.Valid() && cfg.minOverlap > 0
    requires -cfg.span <= o <= cfg.span && (o + cfg.span) % cfg.step == 0
    requires Overlap(|xs|, |ys|, o) >= cfg.minOverlap
    requires Aligned(xs, ys, o).0 == Aligned(xs, ys, o).1
    ensures |xs| > 0 && |ys| > 0
    ensures (o + cfg.span) / cfg.step < |CompareFingerprints(xs, ys, cfg)|
    ensures CompareFingerprints(xs, ys, cfg)[(o + cfg.span) / cfg.step] == Some(1.0)
  {
    OffsetScanned(cfg.span, cfg.step, o);
    OverlapAtMostShorter(|xs|, |ys|, o);
    CrossCorrelationPerfect(xs, ys, o, cfg.minOverlap);
    CurveEntry(xs, ys, cfg, (o + cfg.span) / cfg.step);
  }

  /** Entry `i` of a curve of two nonempty fingerprints. */
  lemma CurveEntry(xs: seq<int>, ys: seq<int>, cfg: Config, i: int)
    requires cfg.Valid() && |xs| > 0 && |ys| > 0 && 0 <= i < NumOffsets(cfg.span, cfg.step)
    ensures i < |CompareFingerprints(xs, ys, cfg)|
    ensures CompareFingerprints(xs, ys, cfg)[i]
      == CrossCorrelation(xs, ys, OffsetAt(cfg.span, cfg.step, i), cfg.minOverlap)
  {
  }

  /** If some scanned offset `o` aligns identical codes over at least the
      minimum overlap, the best match scores 100 percent, at `o` or at an
      earlier offset that also aligns perfectly. */
  lemma PerfectAlignmentWins(xs: seq<int>, ys: seq<int>, cfg: Config, o: int)
    requires cfg.Valid() && cfg.minOverlap > 0
    requires -cfg.span <= o <= cfg.span && (o + cfg.span) % cfg.step == 0
    requires Overlap(|xs|, |ys|, o) >= cfg.minOverlap
    requires Aligned(xs, ys, o).0 == Aligned(xs, ys, o).1
    ensures GetMaxCorr(CompareFingerprints(xs, ys, cfg), cfg).Some?
    ensures GetMaxCorr(CompareFingerprints(xs, ys, cfg), cfg).value.percent == 100.0
    ensures GetMaxCorr(CompareFingerprints(xs, ys, cfg), cfg).value.offset <= o
  {
    var curve := CompareFingerprints(xs, ys, cfg);
    var i := (o + cfg.span) / cfg.step;
    PerfectEntry(xs, ys, cfg, o);
    OffsetScanned(cfg.span, cfg.step, o);
    CurveAtMostOne(xs, ys, cfg);
    PerfectScoreAt(curve, cfg, i, o);
  }

  /** `PerfectScoreOffset` with the offset of index `i` named. */
  lemma PerfectScoreAt(curve: Scores, cfg: Config, i: nat, o: int)
    requires cfg.Valid()
    requires forall j :: 0 <= j < |curve| && curve[j].Some? ==> curve[j].value <= 1.0
    requires i < |curve| && curve[i] == Some(1.0)
    requires OffsetAt(cfg.span, cfg.step, i) == o
    ensures GetMaxCorr(curve, cfg).Some?
    ensures GetMaxCorr(curve, cfg).value.percent == 100.0
    ensures GetMaxCorr(curve, cfg).value.offset <= o
  {
    PerfectScoreOffset(curve, cfg, i);
  }

  /** A fingerprint at least as long as the minimum overlap, compared with
      itself over a grid through offset 0, matches at 100 percent, at offset 0
      or before it. */
  lemma IdenticalFingerprintsMatchFully(xs: seq<int>, cfg: Config)
    requires cfg.Valid() && cfg.minOverlap > 0 && cfg.span >= 0 && cfg.span % cfg.step == 0
    requires |xs| >= cfg.minOverlap
    ensures GetMaxCorr(CompareFingerprints(xs, xs, cfg), cfg).Some?
    ensures GetMaxCorr(CompareFingerprints(xs, xs, cfg), cfg).value.percent == 100.0
    ensures GetMaxCorr(CompareFingerprints(xs, xs, cfg), cfg).value.offset <= 0
  {
    PerfectAlignmentWins(xs, xs, cfg, 0);
  }

  /** A target that is the source without its first `d` codes is found at
      100 percent, at offset `d` or before it. */
  lemma ShiftedCopyMatchesFully(xs: seq<int>, d: nat, cfg: Config)
    requires cfg.Valid() && cfg.minOverlap > 0
    requires d <= cfg.span && (d + cfg.span) % cfg.step == 0
    requires d + cfg.minOverlap <= |xs|
    ensures GetMaxCorr(CompareFingerprints(xs, xs[d..], cfg), cfg).Some?
    ensures GetMaxCorr(CompareFingerprints(xs, xs[d..], cfg), cfg).value.percent == 100.0
    ensures GetMaxCorr(CompareFingerprints(xs, xs[d..], cfg), cfg).value.offset <= d
  {
    var ys := xs[d..];
    var n := Overlap(|xs|, |ys|, d);
    assert n == |xs| - d;
    assert Aligned(xs, ys, d).0 == Aligned(xs, ys, d).1;
    PerfectAlignmentWins(xs, ys, cfg, d);
  }

  /** The percentage a comparison of two unsigned 32-bit fingerprints
      reports lies between 0 and 100. */
  lemma CorrelatePercentInRange(source: string, target: string, delay: int,
                                fetchSource: Fetch, fetchTarget: Fetch, cfg: Config)
    requires cfg.Valid()
    requires ReadFingerprint(fetchSource).Got? ==> IsUint32Seq(ReadFingerprint(fetchSource).fp)
    requires ReadFingerprint(fetchTarget).Got? ==> IsUint32Seq(ReadFingerprint(fetchTarget).fp)
    ensures var run := Correlate(source, target, delay, fetchSource, fetchTarget, cfg);
      run.outcome.Matched? ==> 0.0 <= run.outcome.best.percent <= 100.0
  {
    var run := Correlate(source, target, delay, fetchSource, fetchTarget, cfg);
    if run.outcome.Matched? {
      var fs, ft := ReadFingerprint(fetchSource).fp, ReadFingerprint(fetchTarget).fp;
      CurveInUnitInterval(fs, ft, cfg);
      PercentInRange(CompareFingerprints(fs, ft, cfg), cfg);
    }
  }

  /** Two usable fingerprints, one shorter than the minimum overlap, scanned
      over a nonnegative span: no offset is evaluable, and the comparison is
      indeterminate rather than a score. */
  lemma ShortFingerprintsIndeterminate(source: string, target: string, delay: int,
                                       fetchSource: Fetch, fetchTarget: Fetch, cfg: Config)
    requires cfg.Valid() && cfg.span >= 0
    requires ReadFingerprint(fetchSource).Got? && ReadFingerprint(fetchTarget).Got?
    requires Min(|ReadFingerprint(fetchSource).fp|, |ReadFingerprint(fetchTarget).fp|) < cfg.minOverlap
    ensures Correlate(source, target, delay, fetchSource, fetchTarget, cfg).outcome == Indeterminate
  {
    ShortFingerprintsUndefined(ReadFingerprint(fetchSource).fp, ReadFingerprint(fetchTarget).fp, cfg);
  }

  /** Comparing a live input with itself after a delay, when the second
      capture repeats the first (a looping stream): the run fingerprints the
      input, waits, fingerprints it again, and scores 100 percent, at offset
      0 or before it. */
  lemma LiveLoopDetected(name: string, delay: int, text: string, cfg: Config)
    requires cfg.Valid() && cfg.minOverlap > 0 && cfg.span >= 0 && cfg.span % cfg.step == 0
    requires delay > 0
    requires |ParseFingerprint(text)| >= cfg.minOverlap
    ensures var run := Correlate(name, name, delay, Output(text), Output(text), cfg);
      && run.events == [Fingerprinted(name), Sleep(delay), Fingerprinted(name)]
      && run.outcome.Matched?
      && run.outcome.best.percent == 100.0
      && run.outcome.best.offset <= 0
  {
    var xs := ParseFingerprint(text);
    assert ReadFingerprint(Output(text)) == Got(xs);
    IdenticalFingerprintsMatchFully(xs, cfg);
    var run := Correlate(name, name, delay, Output(text), Output(text), cfg);
    assert run.events == [Fingerprinted(name)] + [Sleep(delay)] + [Fingerprinted(name)];
    assert run.outcome.Matched?;
    assert Some(run.outcome.best) == GetMaxCorr(CompareFingerprints(xs, xs, cfg), cfg);
  }

  /** With the shipped configuration (span 150, step 1, minimum overlap 20),
      two nonempty fingerprints give 301 entries, entry `i` scoring offset
      `i - 150`. */
  lemma DefaultCurveShape(xs: seq<int>, ys: seq<int>)
    requires |xs| > 0 && |ys| > 0
    ensures |CompareFingerprints(xs, ys, DefaultConfig)| == 301
    ensures forall i :: 0 <= i < 301 ==>
      CompareFingerprints(xs, ys, DefaultConfig)[i] == CrossCorrelation(xs, ys, i - 150, 20)
  {
    var curve := CompareFingerprints(xs, ys, DefaultConfig);
    forall i | 0 <= i < 301
      ensures curve[i] == CrossCorrelation(xs, ys, i - 150, 20)
    {
      assert OffsetAt(150, 1, i) == i - 150;
    }
  }

  /** With the shipped configuration, the outermost offsets -150 and 150 of
      two equally long fingerprints are scored exactly when the fingerprints
      have at least 170 codes: 20 codes overlap there, 19 do not suffice. */
  lemma DefaultEdgeOffsets(xs: seq<int>, ys: seq<int>)
    requires |xs| == |ys| > 0
    ensures CompareFingerprints(xs, ys, DefaultConfig)[0].Some? <==> |xs| >= 170
    ensures CompareFingerprints(xs, ys, DefaultConfig)[300].Some? <==> |xs| >= 170
  {
    DefaultCurveShape(xs, ys);
    assert Overlap(|xs|, |ys|, -150) == Overlap(|xs|, |ys|, 150);
  }

  /** With the shipped configuration, fingerprints shorter than 20 codes
      trigger the span warning, and all 301 curve entries are undefined. */
  lemma DefaultShortSampleWarned(xs: seq<int>, ys: seq<int>)
    requires |xs| > 0 && |ys| > 0 && Min(|xs|, |ys|) < 20
    ensures SpanExceedsSample(xs, ys, DefaultConfig.span)
    ensures |CompareFingerprints(xs, ys, DefaultConfig)| == 301
    ensures AllUndefined(CompareFingerprints(xs, ys, DefaultConfig))
  {
    DefaultCurveShape(xs, ys);
    ShortFingerprintsUndefined(xs, ys, DefaultConfig);
  }
}

=== FILE: selector.dfy ===
/** Reducing a correlation curve to its best match (`get_max_corr` in
    correlation.py). */
module Selector {
  import opened Types

  /** One optional score per scanned offset, in scan order. */
  type Scores = seq<Option<real>>

  /** The best match: the winning curve index, the offset it stands for,
      the score as a percentage, and whether the score reaches the internal
      "match" threshold (the source only prints the last three; it returns
      the percentage). */
  datatype BestMatch = BestMatch(index: nat, offset: int, percent: real, isMatch: bool)

  predicate AllUndefined(c: Scores) {
    forall i :: 0 <= i < |c| ==> c[i].None?
  }

  /** Index `k` holds a defined score that no defined score exceeds, and no
      earlier index holds that same score: the first maximum. */
  predicate IsFirstMaximum(c: Scores, k: int) {
    && 0 <= k < |c|
    && c[k].Some?
    && (forall j :: 0 <= j < |c| && c[j].Some? ==> c[j].value <= c[k].value)
    && (forall j :: 0 <= j < k ==> c[j] != c[k])
  }

  /** `max` over the defined scores; `None` when there are none. */
  function MaxDefined(c: Scores): (m: Option<real>)
    ensures m.None? <==> AllUndefined(c)
    ensures m.Some? ==> m in c
    ensures m.Some? ==> forall j :: 0 <= j < |c| && c[j].Some? ==> c[j].value <= m.value
    decreases |c|
  {
    if |c| == 0 then None
    else
      var rest := MaxDefined(c[1..]);
      assert forall j :: 1 <= j < |c| ==> c[j] == c[1..][j - 1];
      match c[0]
      case None => rest
      case Some(v) => if rest.Some? && rest.value > v then rest else Some(v)
  }

  /** The first index holding `x`. */
  function FirstIndexOf(c: Scores, x: Option<real>): (k: nat)
    requires x in c
    ensures k < |c| && c[k] == x
    ensures forall j :: 0 <= j < k ==> c[j] != x
    decreases |c|
  {
    if c[0] == x then 0
    else
      var k := 1 + FirstIndexOf(c[1..], x);
      assert forall j :: 1 <= j < |c| ==> c[j] == c[1..][j - 1];
      k
  }

  /** The best match of a curve: `None` exactly when no score is defined
      (an empty curve included); otherwise the first index holding the
      largest defined score, so ties go to the lowest offset, with its
      offset recovered as `-span + index * step` and its score scaled to a
      percentage. */
  function GetMaxCorr(curve: Scores, cfg: Config): (r: Option<BestMatch>)
    ensures r.None? <==> AllUndefined(curve)
    ensures r.Some? ==>
      && IsFirstMaximum(curve, r.value.index)
      && r.value.offset == -cfg.span + r.value.index * cfg.step
      && r.value.percent == curve[r.value.index].value * 100.0
      && (r.value.isMatch <==> curve[r.value.index].value >= cfg.threshold)
  {
    match MaxDefined(curve)
    case None => None
    case Some(m) =>
      var k := FirstIndexOf(curve, Some(m));
      Some(BestMatch(k, -cfg.span + k * cfg.step, m * 100.0, m >= cfg.threshold))
  }

  /** A curve has at most one first maximum. */
  lemma FirstMaximumUnique(c: Scores, k1: int, k2: int)
    requires IsFirstMaximum(c, k1) && IsFirstMaximum(c, k2)
    ensures k1 == k2
  {
    assert c[k1].value <= c[k2].value && c[k2].value <= c[k1].value;
    assert c[k1] == c[k2];
  }

  /** The selector as the source writes it: one pass for the maximum of the
      defined scores, a second pass for the first index equal to it. */
  method SelectBestMatch(corrValues: Scores, cfg: Config) returns (r: Option<BestMatch>)
    ensures r == GetMaxCorr(corrValues, cfg)
  {
    var found := false;
    var maxVal := 0.0;
    var i := 0;
    while i < |corrValues|
      invariant 0 <= i <= |corrValues|
      invariant !found <==> forall j :: 0 <= j < i ==> corrValues[j].None?
      invariant found ==> Some(maxVal) in corrValues[..i]
      invariant found ==> forall j :: 0 <= j < i && corrValues[j].Some? ==> corrValues[j].value <= maxVal
    {
      if corrValues[i].Some? && (!found || corrValues[i].value > maxVal) {
        maxVal := corrValues[i].value;
        found := true;
      }
      i := i + 1;
    }
    if !found {
      return None;
    }
    var k := 0;
    while corrValues[k] != Some(maxVal)
      invariant 0 <= k < |corrValues|
      invariant Some(maxVal) in corrValues[k..]
      invariant forall j :: 0 <= j < k ==> corrValues[j] != Some(maxVal)
      decreases |corrValues| - k
    {
      k := k + 1;
    }
    r := Some(BestMatch(k, -cfg.span + k * cfg.step, maxVal * 100.0, maxVal >= cfg.threshold));
    FirstMaximumUnique(corrValues, k, GetMaxCorr(corrValues, cfg).value.index);
  }

  /** A curve whose defined scores lie between 0 and 1 yields a percentage
      between 0 and 100. */
  lemma PercentInRange(curve: Scores, cfg: Config)
    requires forall i :: 0 <= i < |curve| && curve[i].Some? ==> 0.0 <= curve[i].value <= 1.0
    ensures GetMaxCorr(curve, cfg).Some? ==> 0.0 <= GetMaxCorr(curve, cfg).value.percent <= 100.0
  {
  }

  /** When scores never exceed 1 and index `i` scores exactly 1, the best
      match scores 100 percent at index `i` or before it. */
  lemma PerfectScoreWins(curve: Scores, cfg: Config, i: nat)
    requires forall j :: 0 <= j < |curve| && curve[j].Some? ==> curve[j].value <= 1.0
    requires i < |curve| && curve[i] == Some(1.0)
    ensures GetMaxCorr(curve, cfg).Some?
    ensures GetMaxCorr(curve, cfg).value.percent == 100.0
    ensures GetMaxCorr(curve, cfg).value.index <= i
  {
    var k := GetMaxCorr(curve, cfg).value.index;
    assert curve[k].value == 1.0;
  }

  /** With scores at most 1 and a score of exactly 1 at index `i`, the
      reported offset is at most the offset of index `i`. */
  lemma PerfectScoreOffset(curve: Scores, cfg: Config, i: nat)
    requires cfg.Valid()
    requires forall j :: 0 <= j < |curve| && curve[j].Some? ==> curve[j].value <= 1.0
    requires i < |curve| && curve[i] == Some(1.0)
    ensures GetMaxCorr(curve, cfg).Some?
    ensures GetMaxCorr(curve, cfg).value.percent == 100.0
    ensures GetMaxCorr(curve, cfg).value.offset <= -cfg.span + i * cfg.step
  {
    PerfectScoreWins(curve, cfg, i);
    var k := GetMaxCorr(curve, cfg).value.index;
    MulMonotone(k, i, cfg.step);
  }

  lemma MulMonotone(a: nat, b: nat, c: nat)
    requires a <= b
    ensures a * c <= b * c
  {
  }
}

=== FILE: similarity.dfy ===
/** The bit-agreement score of two fingerprints at a fixed alignment
    (`correlation` in correlation.py). Scores are exact reals. */
module Similarity {
  import opened Types
  import opened Bits

  /** The `covariance` accumulator: the pair scores of two equally long
      sequences, summed position by position. */
  function Agreement(xs: seq<int>, ys: seq<int>): (total: int)
    requires |xs| == |ys|
    ensures total <= 32 * |xs|
    decreases |xs|
  {
    if |xs| == 0 then 0
    else Agreement(xs[..|xs| - 1], ys[..|ys| - 1]) + PairScore(xs[|xs| - 1], ys[|ys| - 1])
  }

  /** Reference count: the number of agreeing bits over all aligned pairs
      of two unsigned 32-bit sequences, counted bit by bit. */
  function AgreeingBitsTotal(xs: seq<int>, ys: seq<int>): nat
    requires |xs| == |ys| && IsUint32Seq(xs) && IsUint32Seq(ys)
    decreases |xs|
  {
    if |xs| == 0 then 0
    else AgreeingBitsTotal(xs[1..], ys[1..]) + AgreeBits(xs[0], ys[0], 32)
  }

  /** Fraction of agreeing bits of two fingerprints: both are cut to the
      shorter length `n`, the pair scores are summed, divided by `n` and by
      32. Either fingerprint empty gives the neutral score 0. */
  function Correlation(xs: seq<int>, ys: seq<int>): (r: real)
    ensures |xs| == 0 || |ys| == 0 ==> r == 0.0
  {
    if |xs| == 0 || |ys| == 0 then 0.0
    else
      var n := Min(|xs|, |ys|);
      (Agreement(xs[..n], ys[..n]) as real / n as real) / 32.0
  }

  /** The scoring loop as the source writes it: truncate the longer list,
      accumulate `32 - popcount(x ^ y)` left to right, then normalise. */
  method CorrelationLoop(listx: seq<int>, listy: seq<int>) returns (r: real)
    ensures r == Correlation(listx, listy)
  {
    if |listx| == 0 || |listy| == 0 {
      return 0.0;
    }
    var xs, ys := listx, listy;
    if |xs| > |ys| {
      xs := xs[..|ys|];
    } else if |xs| < |ys| {
      ys := ys[..|xs|];
    }
    var n := Min(|listx|, |listy|);
    assert xs == listx[..n] && ys == listy[..n];
    var covariance := 0;
    var i := 0;
    while i < |xs|
      invariant 0 <= i <= |xs| == |ys|
      invariant covariance == Agreement(xs[..i], ys[..i])
    {
      assert xs[..i + 1][..i] == xs[..i] && ys[..i + 1][..i] == ys[..i];
      covariance := covariance + PairScore(xs[i], ys[i]);
      i := i + 1;
    }
    assert xs[..i] == xs && ys[..i] == ys;
    r := (covariance as real / |xs| as real) / 32.0;
  }

  /** Only the common prefix of two fingerprints enters their score. */
  lemma CorrelationOfCommonPrefix(xs: seq<int>, ys: seq<int>)
    ensures var n := Min(|xs|, |ys|);
      Correlation(xs, ys) == Correlation(xs[..n], ys[..n])
  {
    var n := Min(|xs|, |ys|);
    assert xs[..n][..n] == xs[..n] && ys[..n][..n] == ys[..n];
  }

  /** Each pair of unsigned 32-bit codes adds between 0 and 32. */
  lemma {:induction false} AgreementBounds(xs: seq<int>, ys: seq<int>)
    requires |xs| == |ys| && IsUint32Seq(xs) && IsUint32Seq(ys)
    ensures 0 <= Agreement(xs, ys) <= 32 * |xs|
    decreases |xs|
  {
    if |xs| > 0 {
      var k := |xs| - 1;
      AgreementBounds(xs[..k], ys[..k]);
      PairScoreCountsAgreeingBits(xs[k], ys[k]);
    }
  }

  lemma {:induction false} AgreementSelf(xs: seq<int>)
    ensures Agreement(xs, xs) == 32 * |xs|
    decreases |xs|
  {
    if |xs| > 0 {
      AgreementSelf(xs[..|xs| - 1]);
      PairScoreSelf(xs[|xs| - 1]);
    }
  }

  lemma {:induction false} AgreementSymmetric(xs: seq<int>, ys: seq<int>)
    requires |xs| == |ys|
    ensures Agreement(xs, ys) == Agreement(ys, xs)
    decreases |xs|
  {
    if |xs| > 0 {
      AgreementSymmetric(xs[..|xs| - 1], ys[..|ys| - 1]);
      PairScoreSymmetric(xs[|xs| - 1], ys[|ys| - 1]);
    }
  }

  /** When every aligned pair differs in the same number `p` of bits, every
      pair adds `32 - p`. */
  lemma {:induction false} AgreementUniformDifference(xs: seq<int>, ys: seq<int>, p: nat)
    requires |xs| == |ys|
    requires forall i :: 0 <= i < |xs| ==> PopcountInt(XorInt(xs[i], ys[i])) == p
    ensures Agreement(xs, ys) == |xs| * (32 - p)
    decreases |xs|
  {
    if |xs| > 0 {
      var k := |xs| - 1;
      var xs', ys' := xs[..k], ys[..k];
      assert forall i :: 0 <= i < |xs'| ==> PopcountInt(XorInt(xs'[i], ys'[i])) == p by {
        forall i | 0 <= i < |xs'|
          ensures PopcountInt(XorInt(xs'[i], ys'[i])) == p
        {
          assert xs'[i] == xs[i] && ys'[i] == ys[i];
        }
      }
      AgreementUniformDifference(xs', ys', p);
      assert PairScore(xs[k], ys[k]) == 32 - p;
      MulSucc(k, 32 - p);
    }
  }

  lemma MulSucc(k: int, c: int)
    ensures k * c + c == (k + 1) * c
  {
  }

  /** The accumulator equals the bit-by-bit count of agreeing positions. */
  lemma {:induction false} AgreementCountsAgreeingBits(xs: seq<int>, ys: seq<int>)
    requires |xs| == |ys| && IsUint32Seq(xs) && IsUint32Seq(ys)
    ensures Agreement(xs, ys) == AgreeingBitsTotal(xs, ys)
    decreases |xs|
  {
    if |xs| > 0 {
      var k := |xs| - 1;
      if k == 0 {
        PairScoreCountsAgreeingBits(xs[0], ys[0]);
        assert xs[..0] == [] && ys[..0] == [];
      } else {
        AgreementCountsAgreeingBits(xs[..k], ys[..k]);
        AgreementCountsAgreeingBits(xs[1..], ys[1..]);
        AgreementCountsAgreeingBits(xs[1..][..k - 1], ys[1..][..k - 1]);
        assert xs[1..][..k - 1] == xs[..k][1..] && ys[1..][..k - 1] == ys[..k][1..];
        PairScoreCountsAgreeingBits(xs[k], ys[k]);
        PairScoreCountsAgreeingBits(xs[0], ys[0]);
        assert xs[1..][k - 1] == xs[k] && ys[1..][k - 1] == ys[k];
        assert xs[1..][..k - 1] == xs[1..][..|xs[1..]| - 1];
      }
    }
  }

  lemma FractionInUnitInterval(a: int, n: int)
    requires n > 0 && 0 <= a <= 32 * n
    ensures 0.0 <= (a as real / n as real) / 32.0 <= 1.0
  {
    var q := a as real / n as real;
    assert q * n as real == a as real;
  }

  /** Dividing `c * n` by `n` and then by 32 leaves `c / 32`. */
  lemma ScaledFraction(c: int, n: int)
    requires n > 0
    ensures ((n * c) as real / n as real) / 32.0 == c as real / 32.0
  {
    assert (n * c) as real == n as real * c as real;
  }

  /** Dividing by `n` then by 32 is dividing by `32 * n`. */
  lemma NestedFraction(a: int, n: int)
    requires n > 0
    ensures (a as real / n as real) / 32.0 == a as real / (32 * n) as real
  {
    assert (32 * n) as real == 32.0 * n as real;
  }

  /** Two fingerprints of unsigned 32-bit codes score between 0 and 1. */
  lemma CorrelationInUnitInterval(xs: seq<int>, ys: seq<int>)
    requires IsUint32Seq(xs) && IsUint32Seq(ys)
    ensures 0.0 <= Correlation(xs, ys) <= 1.0
  {
    if |xs| > 0 && |ys| > 0 {
      var n := Min(|xs|, |ys|);
      AgreementBounds(xs[..n], ys[..n]);
      FractionInUnitInterval(Agreement(xs[..n], ys[..n]), n);
    }
  }

  /** The score of two equally long nonempty fingerprints is their
      accumulator divided by `n` and by 32; no truncation happens. */
  lemma CorrelationEqualLengths(xs: seq<int>, ys: seq<int>)
    requires |xs| == |ys| > 0
    ensures Correlation(xs, ys) == (Agreement(xs, ys) as real / |xs| as real) / 32.0
  {
    assert xs[..|xs|] == xs && ys[..|ys|] == ys;
  }

  /** No two fingerprints score above 1, whatever integers they hold. */
  lemma CorrelationAtMostOne(xs: seq<int>, ys: seq<int>)
    ensures Correlation(xs, ys) <= 1.0
  {
    if |xs| > 0 && |ys| > 0 {
      var n := Min(|xs|, |ys|);
      FractionAtMostOne(Agreement(xs[..n], ys[..n]), n);
    }
  }

  lemma FractionAtMostOne(a: int, n: int)
    requires n > 0 && a <= 32 * n
    ensures (a as real / n as real) / 32.0 <= 1.0
  {
    var q := a as real / n as real;
    assert q * n as real == a as real;
  }

  /** A nonempty fingerprint agrees with itself in every bit. */
  lemma CorrelationSelf(xs: seq<int>)
    requires |xs| > 0
    ensures Correlation(xs, xs) == 1.0
  {
    CorrelationEqualLengths(xs, xs);
    AgreementSelf(xs);
    ScaledFraction(32, |xs|);
  }

  /** Swapping the two fingerprints does not change the score. */
  lemma CorrelationSymmetric(xs: seq<int>, ys: seq<int>)
    ensures Correlation(xs, ys) == Correlation(ys, xs)
  {
    if |xs| > 0 && |ys| > 0 {
      var n := Min(|xs|, |ys|);
      AgreementSymmetric(xs[..n], ys[..n]);
    }
  }

  /** Two equally long fingerprints whose codes all differ in the same number
      `p` of bits score `1 - p/32`, whatever their contents. */
  lemma CorrelationUniformDifference(xs: seq<int>, ys: seq<int>, p: nat)
    requires |xs| == |ys| > 0
    requires forall i :: 0 <= i < |xs| ==> PopcountInt(XorInt(xs[i], ys[i])) == p
    ensures Correlation(xs, ys) == 1.0 - p as real / 32.0
  {
    CorrelationEqualLengths(xs, ys);
    AgreementUniformDifference(xs, ys, p);
    ScaledFraction(32 - p, |xs|);
  }

  /** The score of two equally long unsigned 32-bit fingerprints is the
      fraction of agreeing bits among all `32 * n` compared bits. */
  lemma CorrelationIsAgreeingBitFraction(xs: seq<int>, ys: seq<int>)
    requires |xs| == |ys| > 0 && IsUint32Seq(xs) && IsUint32Seq(ys)
    ensures Correlation(xs, ys) == AgreeingBitsTotal(xs, ys) as real / (32 * |xs|) as real
  {
    CorrelationEqualLengths(xs, ys);
    AgreementCountsAgreeingBits(xs, ys);
    NestedFraction(Agreement(xs, ys), |xs|);
  }
}

=== FILE: types.dfy ===
/** Shared vocabulary of the correlation engine: optional values, fingerprints
    and the scan configuration. */
module Types {

  /** A value that may be absent; used for undefined curve entries and for
      "no match determinable". */
  datatype Option<+T> = None | Some(value: T)

  /** 2^32: fingerprint codes produced by the fingerprinting tool are unsigned
      32-bit integers. */
  const Uint32Limit: int := 0x1_0000_0000

  /** Every code of the fingerprint is an unsigned 32-bit value. */
  predicate IsUint32Seq(s: seq<int>) {
    forall i :: 0 <= i < |s| ==> 0 <= s[i] < Uint32Limit
  }

  /** The scan parameters that the source keeps as module globals: `span`
      (largest offset scanned), `step` (distance between scanned offsets),
      `min_overlap` (fewest aligned positions an offset needs to be scored)
      and `internal_script_threshold` (the score reported as a "match"). */
  datatype Config = Config(span: int, step: int, minOverlap: int, threshold: real) {
    /** The scan moves forwards through the offsets. */
    predicate Valid() {
      step > 0
    }
  }

  /** The values the source assigns to its globals. */
  const DefaultConfig: Config := Config(150, 1, 20, 0.5)

  function Min(a: int, b: int): int {
    if a <= b then a else b
  }

  function Max(a: int, b: int): int {
    if a >= b then a else b
  }
}
